=== FILE: README.md ===
# Receipt parser: a Dafny model of the upload-and-report core

This project models the receipt parser API. A user uploads a photo of a shop receipt. A vision
model reads it and returns JSON. The API cleans that reply, turns it into a `ReceiptAnalysis`,
maps each item's free-text category label to a shared `Category` row, and stores a `Receipt`
with its `LineItem`s. The user can then ask for their total spending, list their receipts, list
everyone's receipts, and delete their own receipts. Registration and login guard all of this.

The model is functional. Entities are immutable datatypes. Each table is a sequence of rows plus
the last id handed out, because SQLite's AUTOINCREMENT never reuses an id. Every operation that
writes takes the tables and returns them. These things are inputs instead of being modelled:

- the HTTP exchange with the vision endpoint, as the sequence of answers its four attempts would
  get;
- JSON decoding, as functions;
- password hashing and verification, as functions;
- token creation, as a function;
- the clock, as a `now` parameter.

Modules, following the source layout:

| module | models |
|---|---|
| `Sanitizer` | `ReceiptAnalyzer.CleanJsonOutput` |
| `RetryPolicy` | `GeminiRetryPolicy.GetPolicy` (Polly wait-and-retry) |
| `Analyzer` | `ReceiptAnalyzer.AnalyzeReceiptImage`: how the answer is sorted into outcomes |
| `CategoryResolution` | the distinct labels and the find-or-create loop of the upload handler |
| `ReceiptsController` | the upload handler from the sentinel check on; the report, delete and summary reply mapping |
| `ReceiptService` | per-user total and count, per-user list, all-receipt listing, ownership-guarded delete |
| `AuthService` | register and login decisions |
| `RegisterValidation`, `ApiRegisterForm`, `UiRegisterForm` | the data-annotation rules of the two register forms |
| `Entities`, `Text`, `Seqs`, `Wrappers` | records; .NET string operations; sequence helpers; `Option` and `Result` |

Modelling choices:

- C# `decimal` is modelled as an exact `real`.
- `DateTime` is modelled as a tick count. `default(DateTime)` is tick 0.
- `null` is modelled as `Option.None`.
- White space is the set that both `char.IsWhiteSpace` and the regex class `\s` accept.

## Model

| member | source | states |
|---|---|---|
| Sanitizer.CleanJsonOutput | ReceiptParserAPI/Analysis/ReceiptAnalyzer.cs:116-130 | If the trimmed reply does not start with a code fence, the result is the trimmed reply. If it starts with a fence but has no `{` before a later `}`, the result is still the trimmed reply. Otherwise the result is exactly the block from the first `{` to the last `}`. |
| Sanitizer.BracedSpan | ReceiptParserAPI/Analysis/ReceiptAnalyzer.cs:121-127 | When some `{` precedes some `}`, the result starts at the first `{`, ends at the last `}`, and has both braces. Otherwise the text is unchanged. |
| Sanitizer.CleanIsInfix | ReceiptParserAPI/Analysis/ReceiptAnalyzer.cs:116-130 | The cleaned text is a contiguous piece of the raw reply and never longer than it. |
| Sanitizer.CleanIdempotent | ReceiptParserAPI/Analysis/ReceiptAnalyzer.cs:116-130 | Cleaning an already cleaned text changes nothing. |
| Sanitizer.FencedReplyRoundTrip | ReceiptParserAPI/Analysis/ReceiptAnalyzer.cs:119-126 | Take a JSON object J that starts with `{` and ends with `}`. The reply "```json\n" + J + "\n```" cleans back to exactly J. |
| Text.TrimSpec | ReceiptParserAPI/Analysis/ReceiptAnalyzer.cs:118 | `Trim` removes exactly the leading and trailing white-space runs. What is left neither starts nor ends with white space. |
| Text.ContainsIsInfix | ReceiptParserAPI/Controllers/ReceiptsController.cs:68 | `Contains(s, part)` holds exactly when `part` occurs in `s` as a contiguous block. |
| Text.DigitsRoundTrip | ReceiptParserAPI/Analysis/ReceiptAnalyzer.cs:70 | The decimal text of a status code reads back as the same number. |
| RetryPolicy.Execute | ReceiptParserAPI/Resilience/GeminiRetryPolicy.cs:10-12 | The policy makes at most 3 retries, so at most 4 attempts. It retries only after a non-success response, and sleeps 2^n s before retry n. The caller gets the first answer the policy does not handle, or the 4th answer. |
| RetryPolicy.SleepDoubles | ReceiptParserAPI/Resilience/GeminiRetryPolicy.cs:12 | Each sleep is twice the previous one, so the sleeps strictly increase. |
| RetryPolicy.SuccessStopsRetrying | ReceiptParserAPI/Resilience/GeminiRetryPolicy.cs:10 | A success on the first attempt ends the run with no sleep. |
| RetryPolicy.ExhaustedRetriesReturnLastFailure | ReceiptParserAPI/Resilience/GeminiRetryPolicy.cs:10-11 | Four failing responses give sleeps of [2, 4, 8], 14 s in all. The 4th failing response is handed back, not an exception. |
| Analyzer.AnalyzeReceiptImage | ReceiptParserAPI/Analysis/ReceiptAnalyzer.cs:48-114 | A network error, any other exception, a non-success status, an envelope that throws, and a null or throwing decode each give a diagnostic: only RawText is set. A non-success status gives a RawText that starts with the numeric code. A decoded success keeps its fields and gets the cleaned text as RawText. |
| Analyzer.InternalError | ReceiptParserAPI/Analysis/ReceiptAnalyzer.cs:107-113 | The catch-all result is a diagnostic whose text starts with the internal-error prefix. |
| Analyzer.ParsedOnlyFromSuccess | ReceiptParserAPI/Analysis/ReceiptAnalyzer.cs:86-97 | A non-diagnostic analysis comes only from a successful response whose payload decodes. Its RawText is the cleaned payload, never the raw reply. |
| Analyzer.StatusCodeRecoverable | ReceiptParserAPI/Analysis/ReceiptAnalyzer.cs:66-72 | The status diagnostic contains the status code right after the prefix, in a form that reads back exactly. |
| Entities.Diagnostic | ReceiptParserAPI/Analysis/ReceiptAnalyzer.cs:102-105 | A diagnostic analysis carries the given text, and every other field keeps its default. |
| CategoryResolution.DistinctLabels | ReceiptParserAPI/Controllers/ReceiptsController.cs:76-79 | A null item list gives no labels. Otherwise the result is every item's label once, with a null label read as "Diğer". Labels are compared exactly. |
| CategoryResolution.SingleItemLabel | ReceiptParserAPI/Controllers/ReceiptsController.cs:76-79 | One item gives exactly its own label. |
| Text.AsciiLowerAgrees | ReceiptParserAPI/Controllers/ReceiptsController.cs:87 | On ASCII text, SQLite's lower-casing of the stored name and .NET's lower-casing of the label agree. |
| Text.NonAsciiCapitalDisagrees | ReceiptParserAPI/Controllers/ReceiptsController.cs:87 | For a name that starts with a non-ASCII capital that .NET lowers (Ç, Ł, Ω, М, ...), the two lower-casings differ: .NET lowers the capital and SQLite keeps it. |
| CategoryResolution.FindCategory | ReceiptParserAPI/Controllers/ReceiptsController.cs:87 | The result is the first stored category whose SQLite-lowered name equals the .NET-lowered label. It is none exactly when no stored name compares equal that way. |
| CategoryResolution.FindOrCreate | ReceiptParserAPI/Controllers/ReceiptsController.cs:87-100 | A match is reused and the table is unchanged. With no match, exactly one category is appended: it has the next id and is named by the label. Either way the result serves the label: it matched it, or it carries the label as its name. |
| CategoryResolution.UnmatchedNameIsCreatedAgain | ReceiptParserAPI/Controllers/ReceiptsController.cs:87-100 | Take a label whose two lower-casings differ and that matches nothing. Looking it up twice creates two categories, both named by the label, with different ids. |
| CategoryResolution.ResolveLabels | ReceiptParserAPI/Controllers/ReceiptsController.cs:82-101 | The loop only appends rows. Each new row is named by a label of the batch and has an id never handed out before. |
| CategoryResolution.ResolveKeys | ReceiptParserAPI/Controllers/ReceiptsController.cs:82-101 | After the loop, the dictionary's keys are exactly the labels. |
| CategoryResolution.ResolveSingle | ReceiptParserAPI/Controllers/ReceiptsController.cs:84-100 | Resolving one label is one find-or-create step. |
| CategoryResolution.ResolveMapsEveryLabel | ReceiptParserAPI/Controllers/ReceiptsController.cs:82-101 | After the loop, every label maps to a stored category that serves it: the lookup matched it, or it was created under the label. Keys that are not labels keep their value. |
| CategoryResolution.ResolveKeepsWellFormed | ReceiptParserAPI/Controllers/ReceiptsController.cs:94-100 | Category ids stay increasing and never exceed the last id handed out. |
| CategoryResolution.CreatedCategoryIsReused | ReceiptParserAPI/Controllers/ReceiptsController.cs:84-101 | An ASCII label that matches nothing creates a category. A later label that .NET lowers the same way (the same name in another casing) finds that category and creates nothing more. |
| CategoryResolution.ResolveCreatesNoCaseDuplicates | ReceiptParserAPI/Controllers/ReceiptsController.cs:84-101 | A row is created only when the lookup finds nothing. So no new row is one that the lookup for its own name would find among the rows before it. |
| CategoryResolution.ResolveKeepsLookupUnique | ReceiptParserAPI/Controllers/ReceiptsController.cs:84-101 | If the lookup for no row's name finds an earlier row, that still holds after the loop. |
| CategoryResolution.LookupUniqueIsCaseUnique | ReceiptParserAPI/Controllers/ReceiptsController.cs:87 | For ASCII names, lookup-uniqueness means no two names are equal ignoring case. |
| CategoryResolution.ResolveMatchedCreatesNothing | ReceiptParserAPI/Controllers/ReceiptsController.cs:87-92 | When every label already has a match, the table comes back unchanged. |
| CategoryResolution.ResolveIdempotent | ReceiptParserAPI/Controllers/ReceiptsController.cs:84-101 | A later batch creates nothing when each of its labels lowers (in .NET) like an ASCII label of the first batch: the same ASCII labels again, in any casing. |
| CategoryResolution.ResolvedAsciiLabelIsFound | ReceiptParserAPI/Controllers/ReceiptsController.cs:84-101 | After a batch is resolved, any label that .NET lowers like one of its ASCII labels has a match in the table. |
| CategoryResolution.StoredNonAsciiNameIsNotReused | ReceiptParserAPI/Controllers/ReceiptsController.cs:87-100 | With "Çay" stored, resolving the label "Çay" appends a second "Çay" row. |
| CategoryResolution.StoredCyrillicNameIsNotFound | ReceiptParserAPI/Controllers/ReceiptsController.cs:87 | A stored Cyrillic "Молоко" is not found for the label "Молоко". |
| ReceiptsController.AssembleLineItems | ReceiptParserAPI/Controllers/ReceiptsController.cs:111-120 | Assembly succeeds exactly when every draft's raw label is a key of the dictionary. On success there is one line item per draft, in order, copying the name and amounts and taking the mapped category. When every label present is a key, a null label fails with ArgumentNull, and ArgumentNull means some label is null. |
| ReceiptsController.LineItemsOf | ReceiptParserAPI/Controllers/ReceiptsController.cs:111-120 | A null item list gives an empty list of line items, not a failure. |
| ReceiptsController.AnalyzeReceipt | ReceiptParserAPI/Controllers/ReceiptsController.cs:68-142 | A null store name fails with a 500 from the NullReferenceException and writes nothing. A store name containing "Hata" gives a 500 carrying RawText and writes nothing. Categories are only appended. Receipts change only on success, by one appended receipt with the next id. |
| ReceiptsController.UploadSavedIff | ReceiptParserAPI/Controllers/ReceiptsController.cs:68-124 | The upload is stored exactly when all three hold: the store name is present, it does not contain "Hata", and no item has a null category. |
| ReceiptsController.UploadedReceiptFields | ReceiptParserAPI/Controllers/ReceiptsController.cs:103-121 | The stored receipt has the caller's id, the store name, the date, the total or 0, RawText as its JSON, and the upload time. It has one line item per draft, in order, each copying the draft and bound to a stored category that serves its label. |
| ReceiptsController.NullCategoryFailsUpload | ReceiptParserAPI/Controllers/ReceiptsController.cs:118-142 | An item with a null category fails the upload with a 500 from the dictionary's null-key exception (ArgumentNull), and no receipt is added. A category serving "Diğer" is nonetheless already saved. |
| ReceiptsController.SentinelRejectsGenuineStoreName | ReceiptParserAPI/Controllers/ReceiptsController.cs:68-71 | A real store name containing "Hata" ("Hatay Market") is refused, and nothing is written. |
| ReceiptsController.FailedAnalysisStoresNothing | ReceiptParserAPI/Controllers/ReceiptsController.cs:66-142 | Every diagnostic from the analyzer ends the upload in a 500 from the null store name, and the store is unchanged. |
| ReceiptsController.ExhaustedRetriesStoreNothing | ReceiptParserAPI/Controllers/ReceiptsController.cs:66-71 | Four failing responses in a row end the upload in a 500, and the store is unchanged. |
| ReceiptsController.UploadAddsToTotal | ReceiptParserAPI/Controllers/ReceiptsController.cs:103-124 | A stored upload raises the caller's total by the analysed total (or 0) and their count by one. |
| ReceiptsController.UploadSparesOtherUsers | ReceiptParserAPI/Controllers/ReceiptsController.cs:123-124 | An upload leaves every other user's receipts as they were. |
| ReceiptsController.SingleItemUpload | ReceiptParserAPI/Controllers/ReceiptsController.cs:76-121 | A one-item receipt is stored. Its line item is bound to the category that the find-or-create step returns. |
| ReceiptsController.CaseVariantLabelsShareCategory | ReceiptParserAPI/Controllers/ReceiptsController.cs:84-101 | Two uploads label an item "Dairy" and then "dairy". They share one new category. |
| ReceiptsController.RepeatedNonAsciiLabelDuplicatesCategory | ReceiptParserAPI/Controllers/ReceiptsController.cs:84-121 | Two uploads both label an item "Çay". They add two categories named "Çay", and their line items are bound to different ones. |
| ReceiptsController.GetTotalSpent | ReceiptParserAPI/Controllers/ReceiptsController.cs:158-172 | The endpoint always answers 200 with the caller's id, their receipt count, their exact total and "TRY". A caller with no receipts gets (0, 0). The 404 branch is never taken. |
| ReceiptsController.DeleteEndpoint | ReceiptParserAPI/Controllers/ReceiptsController.cs:218-225 | The reply is 200 exactly when the first receipt with the id belongs to the caller. A 404 leaves the rows unchanged. |
| ReceiptService.OwnedByMembers | ReceiptParserAPI/Services/ReceiptService.cs:18-19 | The filter keeps exactly the user's receipts. Every kept receipt is theirs and comes from the table, and none of theirs is dropped. |
| ReceiptService.SumOwned | ReceiptParserAPI/Services/ReceiptService.cs:18-20 | The first query always gives a value: the exact sum of the user's totals, 0 when they have none. |
| ReceiptService.CountOwned | ReceiptParserAPI/Services/ReceiptService.cs:27-28 | The second query counts exactly the user's receipts. |
| ReceiptService.GetUserTotalSpent | ReceiptParserAPI/Services/ReceiptService.cs:16-31 | The answer is never null. It is the exact sum of the user's totals with the count of the user's receipts, so (0, 0) for a user with none. |
| ReceiptService.GetUserReceiptsList | ReceiptParserAPI/Services/ReceiptService.cs:33-48 | The list is exactly the caller's receipts, in order, projected to id, store, total and both dates. Every entry comes from a receipt the caller owns. |
| ReceiptService.ListReceipt | ReceiptParserAPI/Services/ReceiptService.cs:53-66 | A listed receipt has one line item per stored one, in order, each carrying exactly that item's name, quantity and line total. |
| ReceiptService.GetAllReceipts | ReceiptParserAPI/Services/ReceiptService.cs:50-70 | The listing has every receipt, in storage order, with its id, store, total and dates. Each line item is listed in order with its name, quantity and line total. |
| ReceiptService.ListingKeepsLineTotals | ReceiptParserAPI/Services/ReceiptService.cs:50-70 | Every listed receipt's line items add up to the same amount as the stored ones. |
| ReceiptService.ViewKeepsLineTotal | ReceiptParserAPI/Services/ReceiptService.cs:60-65 | Projecting line items to name, quantity and line total keeps their sum. |
| ReceiptService.DeleteReceipt | ReceiptParserAPI/Services/ReceiptService.cs:72-84 | Delete returns false, with the rows unchanged, when no receipt has the id or the first one with it belongs to someone else. Otherwise it removes exactly that receipt. |
| ReceiptService.DeleteSparesOtherUsers | ReceiptParserAPI/Services/ReceiptService.cs:74-83 | A delete never changes another user's receipts. |
| ReceiptService.RemoveLowersTotal | ReceiptParserAPI/Services/ReceiptService.cs:80-83 | Removing one of the user's receipts lowers their total by its amount and their count by one. |
| ReceiptService.DeleteLowersTotal | ReceiptParserAPI/Services/ReceiptService.cs:72-84 | A successful delete lowers the owner's total by the deleted receipt's amount. |
| ReceiptService.RemoveLowersItemCount | ReceiptParserAPI/Services/ReceiptService.cs:80-83 | Removing one receipt removes exactly its own line items from the count of all line items. |
| ReceiptService.DeleteCascadesLineItems | ReceiptParserAPI/Migrations/20251121084053_RefactorDb.cs:89-94 | Deleting a receipt removes exactly its line items and no others. In the model this holds by construction: a receipt holds its line items, which mirrors the cascade rather than deriving it. |
| ReceiptService.DeleteRemovesTheId | ReceiptParserAPI/Services/ReceiptService.cs:74-83 | When ids are unique, no receipt with the deleted id remains. |
| AuthService.Register | ReceiptParserAPI/Services/AuthService.cs:27-48 | Register returns false, with the table unchanged, exactly when some user has the username or the email. Otherwise it appends one user: the next id, the name, the email, hash(password) and the time. |
| AuthService.RegisterKeepsUnique | ReceiptParserAPI/Services/AuthService.cs:29-45 | Usernames stay unique, and emails stay unique. |
| AuthService.Login | ReceiptParserAPI/Services/AuthService.cs:51-74 | Login returns null when no user has the name, and null when the first such user's hash does not verify. Otherwise it returns that user's token and id. |
| AuthService.RegisterThenLogin | ReceiptParserAPI/Services/AuthService.cs:27-74 | A user who has just registered can log in with the same password and gets the new id. This holds when the verifier accepts the hasher's output. |
| AuthService.LoginFindsTheAccount | ReceiptParserAPI/Services/AuthService.cs:53-73 | When usernames are unique, login succeeds exactly when that user's hash verifies, and returns that user. |
| RegisterValidation.MatchesEmailPatternIff | ReceiptParserAPI/Dto/UserRegisterDto.cs:12 | The direct test accepts exactly the strings that `^[^@\s]+@[^@\s]+\.[^@\s]+$` matches in full. |
| RegisterValidation.PatternImpliesEmailAddress | ReceiptParserAPI/Dto/UserRegisterDto.cs:11-12 | A value that the pattern accepts also passes `[Required]` and `[EmailAddress]`. |
| RegisterValidation.EmailFieldIff | ReceiptParserAPI/Dto/UserRegisterDto.cs:10-13 | The e-mail rules accept a value exactly when it is present and the pattern matches all of it. |
| RegisterValidation.PasswordFieldIff | ReceiptParserAPI/Dto/UserRegisterDto.cs:15-17 | The password rules accept a value exactly when it is present, not blank, and at least 6 characters long. |
| RegisterValidation.AcceptedEmailShape | ReceiptParserAPI/Dto/UserRegisterDto.cs:12 | An accepted address has exactly one '@', with something before it. It has no white space. After the '@' there is a '.' with something on each side. |
| RegisterValidation.ShortestEmailAccepted | ReceiptParserAPI/Dto/UserRegisterDto.cs:12 | "a@b.c" is accepted. |
| RegisterValidation.DotlessDomainRejected | ReceiptParserAPI/Dto/UserRegisterDto.cs:12 | "a@b" is refused. |
| RegisterValidation.EmptyLocalPartRejected | ReceiptParserAPI/Dto/UserRegisterDto.cs:12 | "@b.c" is refused. |
| RegisterValidation.EmptyDomainPartRejected | ReceiptParserAPI/Dto/UserRegisterDto.cs:12 | "a@.c" and "a@b." are refused. |
| RegisterValidation.SpacedEmailRejected | ReceiptParserAPI/Dto/UserRegisterDto.cs:12 | "a b@c.d" is refused. |
| RegisterValidation.PasswordExamples | ReceiptParserAPI/Dto/UserRegisterDto.cs:15-17 | Six characters pass and five fail. Six spaces fail `[Required]`. |
| RegisterValidation.SameRulesSameVerdict | ReceiptParser.UI/Dto/RegisterDto.cs:7-17 | Forms that declare the same rules accept the same input, whatever their messages. |
| ApiRegisterForm.ValidIff | ReceiptParserAPI/Dto/UserRegisterDto.cs:7-17 | The API accepts a registration exactly when three things hold. The username is present and not blank. The email is present and matches in full. The password is present, not blank and at least 6 characters. |
| UiRegisterForm.AgreesWithApi | ReceiptParser.UI/Dto/RegisterDto.cs:7-17 | The UI form accepts exactly the registrations the API form accepts. |

## Behaviour worth knowing

- **Null category labels.** The code puts "Diğer" into the distinct labels and creates a category
  for it. It then indexes the dictionary with the raw null label (ReceiptsController.cs:118).
  That throws, and the upload ends in a 500 (`NullCategoryFailsUpload`).
- **Partial writes.** Each new category is saved inside the loop. So when assembly fails
  afterwards, those categories stay, and no receipt is stored (`NullCategoryFailsUpload`).
- **Category names with non-ASCII capitals.** The lookup lowers the stored name with SQLite's
  ASCII-only `lower()` and the label with .NET's `ToLower()`. A stored "Çay" is therefore never
  found for the label "Çay". Every upload with that label adds another "Çay" row
  (`StoredNonAsciiNameIsNotReused`, `RepeatedNonAsciiLabelDuplicatesCategory`). The migration
  has no unique index on category names (RefactorDb.cs:14-25). What the sequential loop keeps is
  lookup-uniqueness (`ResolveKeepsLookupUnique`). That amounts to case-uniqueness only for names
  such as ASCII names (`LookupUniqueIsCaseUnique`).
- **Exact label comparison.** `Distinct` compares labels exactly and trims nothing. ASCII case
  variants within one batch still share one category, because each creation is saved before the
  next lookup (`CreatedCategoryIsReused`, `CaseVariantLabelsShareCategory`).
- **The failure sentinel.** A failed analysis has no store name, so the "Hata" check itself
  throws (`FailedAnalysisStoresNothing`). The check only fires on genuine store names such as
  "Hatay Market" (`SentinelRejectsGenuineStoreName`).
- **Timeouts.** A timeout is not an `HttpRequestException`, so it gets the internal-error
  diagnostic (`Analyzer.AnalyzeReceiptImage`). The retry policy handles only responses:
  exceptions are not retried (`RetryPolicy.Execute`).
- **Dead branches in the total-spent path.** The sum query is never null, because EF Core
  translates it with `COALESCE(.., 0)`. So the service's `(0, 0)` branch (ReceiptService.cs:22-25)
  is never taken. The service never returns null, so the controller's 404 is never taken either
  (`GetTotalSpent`).

## Left out

- The request itself is not modelled: building it, base64-encoding the image, `HttpClient`, and
  the walk through the JSON envelope (ReceiptAnalyzer.cs:9-46, 74-83). Answers, the envelope
  walk and decoding are inputs. Line 61 builds content that is never sent.
- Polly's timers and async suspension are not modelled. The backoff is a list of whole seconds.
  `Math.Pow` is used only for 2^1..2^3, which are exact.
- ReceiptService.GetUserTotalSpent: the sum goes through `double` and back to `decimal`
  (ReceiptService.cs:20). The model sums exact decimals, so rounding in that round trip is not
  modelled.
- EF Core, SQLite, the DbContext and the migrations are not modelled as machinery. The model uses
  only the cascade from receipts to line items and the absence of a unique index on category
  names.
- Line items have no ids, receipt ids or category ids of their own. A line item holds its
  category, and its receipt holds it.
- Concurrent uploads racing to create the same category are not modelled. The loop is
  sequential.
- JWT creation, password hashing and verification are not modelled (AuthService.cs:62-63,
  77-100; PasswordHasherService.cs). They are parameters.
- Date filtering, `ReceiptFilterDto` and `GetCategoryReportAsync` are not modelled: their code
  is not part of this model. The summary endpoint maps any report it is given. The per-user list
  is modelled without a filter.
- `GetAllCategoriesAsync` is left out: its implementation is not part of this model.
- The claims check, the file check, the user-exists check and the API-key check before the
  upload's `try` are not modelled (ReceiptsController.cs:34-56). Neither are `AuthController`
  and the two `Program.cs` files.
- `[MaxLength]` on entities is not modelled. The code shown never enforces it.
- A null `ItemName` is not modelled, and neither is a store name longer than the column. Only the
  null store name at ReceiptsController.cs:68 and the null category at line 118 are modelled.
- Validation error messages are carried as data but not checked. Only the accept/reject verdict
  is modelled.
- Text.LabelLower: lowers the capitals of ASCII, Latin-1, Latin Extended-A, basic Greek and basic
  Cyrillic (U+0400-U+042F). It keeps İ (U+0130), as every culture but Turkish and Azeri does.
  Capitals of other scripts are left unchanged, though .NET lowers them: Latin Extended-B and
  Additional, the rest of Greek and Cyrillic, Armenian, Georgian, fullwidth letters, the Kelvin
  sign. The server's culture is not modelled: in tr-TR, `ToLower()` maps "I" to "ı" and "İ" to
  "i", which would also make ASCII names with an "I" miss.
- CategoryResolution.FindCategory: inherits the gaps of `Text.LabelLower`. A stored name whose
  only capitals come from the unmodelled scripts is found in the model but missed by the program.
- CategoryResolution.CreatedCategoryIsReused, CategoryResolution.LookupUniqueIsCaseUnique,
  CategoryResolution.ResolveIdempotent: stated for ASCII names only. The program also reuses a
  non-ASCII name whose letters are all lower case, but that claim would rest on the partial
  `Text.LabelLower`.
- ReceiptsController.CategorySummaryReply: only the two-way branch on the report is modelled
  (ReceiptsController.cs:239-246), as a plain helper with no contract. The report itself comes
  from `GetCategoryReportAsync`, which is not part of this model, so nothing relates the reply
  to stored receipts.
- Sanitizer.CleanJsonOutput: `StartsWith("```")` is compared ordinally. .NET's
  culture-sensitive comparison, which can ignore zero-width characters, is not modelled.
- RegisterValidation.MinLengthOk: counts characters (code points). .NET counts UTF-16 code
  units, so the two differ on characters outside the Basic Multilingual Plane.
- RegisterValidation.EmailAddressOk: follows the .NET Core attribute: one '@', neither first
  nor last. Newer framework versions also refuse line breaks. That check changes nothing here,
  because the pattern already refuses all white space.
- ReceiptsController.AssembleLineItems: the `KeyNotFound` failure is modelled, but it cannot
  occur. Every non-null label is a key once the loop has run.

=== FILE: analyzer.dfy ===
/**
 * `ReceiptAnalyzer.AnalyzeReceiptImage`, from the point where the request is sent: the retry
 * policy runs the POST, and the final answer is sorted into one of four outcomes. Every
 * failure is caught and turned into a diagnostic analysis that carries only `RawText`;
 * nothing is thrown to the caller.
 *
 * The HTTP exchange and both JSON steps are inputs: `answers` is what the endpoint would
 * return to each attempt, `extract` is the walk from the response envelope to the text of the
 * first candidate part, and `deserialize` is `JsonSerializer.Deserialize<ReceiptAnalysis>`
 * with case-insensitive property names.
 */
module Analyzer {
  import opened Wrappers
  import opened Text
  import opened Entities
  import opened Sanitizer
  import opened RetryPolicy

  /** The envelope walk: the text found (null when the JSON value is null), or a throw. */
  datatype Envelope = EnvelopeText(text: Option<string>) | EnvelopeFault(message: string)

  /** The payload deserializer: an analysis, a null result, or a throw. */
  datatype Decoded = DecodedAnalysis(analysis: ReceiptAnalysis) | DecodedNull | DecodeFault(message: string)

  const StatusErrorPrefix := "Gemini API Hatas\U{131}: Durum Kodu "
  const NetworkErrorPrefix := "A\U{11F} Ba\U{11F}lant\U{131}s\U{131} Hatas\U{131}: "
  const InternalErrorPrefix := "\U{130}\U{E7} Uygulama Hatas\U{131}: "
  const NullResultMessage := "JSON Deserialization null sonu\U{E7} d\U{F6}nd\U{FC}rd\U{FC}."

  /** The diagnostic text for a non-success status: numeric code, the `HttpStatusCode` name and the response body. */
  function StatusErrorText(status: nat, statusName: string, body: string): string {
    StatusErrorPrefix + Digits(status) + " (" + statusName + "). Cevap: " + body
  }

  function AnalyzeReceiptImage(
    answers: seq<HttpAnswer>,
    extract: string -> Envelope,
    deserialize: string -> Decoded): (a: ReceiptAnalysis)
    requires |answers| == MaxAttempts
    // a network failure is reported, not thrown
    ensures var final := Execute(answers).final;
      final.RequestFailed? ==> a == Diagnostic(NetworkErrorPrefix + final.message)
    // any other exception is reported too
    ensures var final := Execute(answers).final;
      final.Faulted? ==> a == InternalError(final.message)
    // a non-success final status: only RawText, which starts with the numeric status code
    ensures var final := Execute(answers).final;
      final.Answered? && !IsSuccessStatusCode(final.status) ==>
        && IsDiagnostic(a)
        && StartsWith(a.rawText, StatusErrorPrefix + Digits(final.status))
    // a success: the decoded analysis with RawText replaced by the cleaned text; when the
    // envelope walk throws or the decoder returns null or throws, an internal-error diagnostic
    ensures var final := Execute(answers).final;
      final.Answered? && IsSuccessStatusCode(final.status) ==>
        var envelope := extract(final.body);
        var cleaned := CleanJsonOutput(if envelope.EnvelopeText? then envelope.text.GetOr("") else "");
        if envelope.EnvelopeText? && deserialize(cleaned).DecodedAnalysis? then
          a == deserialize(cleaned).analysis.(rawText := cleaned)
        else
          IsDiagnostic(a) && StartsWith(a.rawText, InternalErrorPrefix)
  {
    match Execute(answers).final
    case RequestFailed(m) => Diagnostic(NetworkErrorPrefix + m)
    case Faulted(m) => InternalError(m)
    case Answered(status, statusName, body) =>
      if !IsSuccessStatusCode(status) then
        var text := StatusErrorText(status, statusName, body);
        PrefixStartsWith(StatusErrorPrefix + Digits(status), text[|StatusErrorPrefix + Digits(status)|..]);
        Diagnostic(text)
      else
        match extract(body)
        case EnvelopeFault(m) => InternalError(m)
        case EnvelopeText(raw) =>
          var cleaned := CleanJsonOutput(raw.GetOr(""));
          match deserialize(cleaned)
          case DecodedAnalysis(d) => d.(rawText := cleaned)
          case DecodedNull => InternalError(NullResultMessage)
          case DecodeFault(m) => InternalError(m)
  }

  /** The diagnostic the catch-all handler builds from an exception message. */
  function InternalError(message: string): (a: ReceiptAnalysis)
    ensures IsDiagnostic(a) && StartsWith(a.rawText, InternalErrorPrefix)
  {
    PrefixStartsWith(InternalErrorPrefix, message);
    Diagnostic(InternalErrorPrefix + message)
  }

  /**
   * The only way to a non-diagnostic analysis is a successful response whose payload
   * decodes, and then its RawText is the cleaned payload, never the raw reply.
   */
  lemma ParsedOnlyFromSuccess(
    answers: seq<HttpAnswer>, extract: string -> Envelope, deserialize: string -> Decoded)
    requires |answers| == MaxAttempts
    requires !IsDiagnostic(AnalyzeReceiptImage(answers, extract, deserialize))
    ensures var final := Execute(answers).final;
      && final.Answered? && IsSuccessStatusCode(final.status)
      && extract(final.body).EnvelopeText?
      && var cleaned := CleanJsonOutput(extract(final.body).text.GetOr(""));
         && deserialize(cleaned).DecodedAnalysis?
         && AnalyzeReceiptImage(answers, extract, deserialize).rawText == cleaned
  {
  }

  /** The diagnostic for a failed status names the code in a form that reads back exactly. */
  lemma StatusCodeRecoverable(status: nat, statusName: string, body: string)
    ensures var prefix := StatusErrorText(status, statusName, body)[|StatusErrorPrefix|..];
      DigitsValue(prefix[..|Digits(status)|]) == status
  {
    var text := StatusErrorText(status, statusName, body);
    assert text[|StatusErrorPrefix|..][..|Digits(status)|] == Digits(status);
    DigitsRoundTrip(status);
  }
}

=== FILE: auth.dfy ===
/**
 * `AuthService`: registration, refused when the username or the email is already taken, and
 * login, which looks the user up by username and checks the password against the stored hash.
 * Hashing, hash verification and token creation are inputs.
 */
module AuthService {
  import opened Wrappers
  import opened Seqs
  import opened Entities

  /** `PasswordVerificationResult`. */
  datatype Verification = Failed | Success | SuccessRehashNeeded

  /** Some user already has the username or the email (compared exactly). */
  predicate Taken(rows: seq<User>, username: string, email: string) {
    exists i | 0 <= i < |rows| :: rows[i].username == username || rows[i].email == email
  }

  /**
   * `RegisterAsync`: false and nothing stored when the account is taken; otherwise one new
   * user with the next id, the given name and email, the hash of the password and the
   * creation time, and true.
   */
  function Register(users: Table<User>, username: string, email: string, password: string,
                    hash: string -> string, now: DateTime): (r: (bool, Table<User>))
    ensures !r.0 <==> Taken(users.rows, username, email)
    ensures !r.0 ==> r.1 == users
    ensures r.0 ==>
      && |r.1.rows| == |users.rows| + 1
      && (forall i | 0 <= i < |users.rows| :: r.1.rows[i] == users.rows[i])
      && r.1.lastId == users.lastId + 1
      && var u := r.1.rows[|users.rows|];
         u.id == r.1.lastId && u.username == username && u.email == email
         && u.passwordHash == hash(password) && u.createdAt == now
  {
    if Taken(users.rows, username, email) then
      (false, users)
    else
      var user := User(users.lastId + 1, username, email, hash(password), now);
      (true, Table(users.rows + [user], user.id))
  }

  /** No two users share a username, and no two share an email. */
  ghost predicate UniqueAccounts(rows: seq<User>) {
    forall i, j | 0 <= i < j < |rows| :: rows[i].username != rows[j].username && rows[i].email != rows[j].email
  }

  /** Registration keeps usernames unique and emails unique. */
  lemma RegisterKeepsUnique(users: Table<User>, username: string, email: string, password: string,
                            hash: string -> string, now: DateTime)
    requires UniqueAccounts(users.rows)
    ensures UniqueAccounts(Register(users, username, email, password, hash, now).1.rows)
  {
    var r := Register(users, username, email, password, hash, now);
    if r.0 {
      var rows := r.1.rows;
      var n := |users.rows|;
      forall i, j | 0 <= i < j < |rows|
        ensures rows[i].username != rows[j].username && rows[i].email != rows[j].email
      {
        if j == n {
          assert rows[i] == users.rows[i];
        } else {
          assert rows[i] == users.rows[i] && rows[j] == users.rows[j];
        }
      }
    }
  }

  /** What a successful login returns: the token and the user's id. */
  datatype Session = Session(token: string, userId: nat)

  /**
   * `LoginAsync`: null when no user has the username, null when the password does not verify
   * against the first such user's hash, and otherwise that user's token and id. The store is
   * only read.
   */
  function Login(rows: seq<User>, username: string, password: string,
                 verify: (string, string) -> Verification, token: User -> string): (s: Option<Session>)
    ensures (forall i | 0 <= i < |rows| :: rows[i].username != username) ==> s.None?
    ensures forall k | 0 <= k < |rows| && rows[k].username == username
                       && (forall i | 0 <= i < k :: rows[i].username != username) ::
      s == (if verify(rows[k].passwordHash, password) == Failed then None
            else Some(Session(token(rows[k]), rows[k].id)))
  {
    var k := FirstIndex(rows, (u: User) => u.username == username);
    if k == -1 then
      None
    else
      var user := rows[k];
      if verify(user.passwordHash, password) == Failed then None
      else Some(Session(token(user), user.id))
  }

  /**
   * A user who has just registered can log in with the same password, provided the verifier
   * recognises the hasher's own output, and gets the new account's id.
   */
  lemma RegisterThenLogin(users: Table<User>, username: string, email: string, password: string,
                          hash: string -> string, verify: (string, string) -> Verification,
                          token: User -> string, now: DateTime)
    requires !Taken(users.rows, username, email)
    requires verify(hash(password), password) != Failed
    ensures var after := Register(users, username, email, password, hash, now).1;
      && Login(after.rows, username, password, verify, token).Some?
      && Login(after.rows, username, password, verify, token).value.userId == users.lastId + 1
  {
    var after := Register(users, username, email, password, hash, now).1;
    var n := |users.rows|;
    forall i | 0 <= i < n
      ensures after.rows[i].username != username
    {
      assert after.rows[i] == users.rows[i];
    }
  }

  /**
   * With unique usernames a successful login is for the one user with that name, and it needs
   * that user's hash to verify.
   */
  lemma LoginFindsTheAccount(rows: seq<User>, username: string, password: string,
                             verify: (string, string) -> Verification, token: User -> string, k: nat)
    requires UniqueAccounts(rows)
    requires k < |rows| && rows[k].username == username
    ensures var s := Login(rows, username, password, verify, token);
      && (s.Some? <==> verify(rows[k].passwordHash, password) != Failed)
      && (s.Some? ==> s.value == Session(token(rows[k]), rows[k].id))
  {
    forall i | 0 <= i < k
      ensures rows[i].username != username
    {
      assert rows[i].username != rows[k].username;
    }
  }
}

=== FILE: categories.dfy ===
/**
 * The category step of the upload handler (`ReceiptController.AnalyzeReceipt`): the distinct
 * labels of the analysed items, and for each of them a find-or-create against the shared
 * category table. The lookup compares SQLite's lower-casing of the stored name with .NET's
 * lower-casing of the label; the two agree on ASCII text only. A created category is saved at
 * once, so a later label of the same batch already sees it.
 */
module CategoryResolution {
  import opened Wrappers
  import opened Seqs
  import opened Text
  import opened Entities

  /** The bucket a null category label falls into. */
  const FallbackLabel := "Di\U{11F}er"

  /** `i.Category ?? "Diğer"`. */
  function Label(item: ItemDto): string {
    item.category.GetOr(FallbackLabel)
  }

  /** `Select(i => i.Category ?? "Diğer")`: the label of every draft, in order. */
  function AllLabels(drafts: seq<ItemDto>): (all: seq<string>)
    ensures |all| == |drafts|
    ensures forall i | 0 <= i < |drafts| :: all[i] == Label(drafts[i])
  {
    if |drafts| == 0 then [] else [Label(drafts[0])] + AllLabels(drafts[1..])
  }

  /**
   * `LineItems?.Select(i => i.Category ?? "Diğer").Distinct().ToList() ?? new List()`:
   * every label once, compared exactly (not ignoring case).
   */
  function DistinctLabels(items: Option<seq<ItemDto>>): (labels: seq<string>)
    ensures items.None? ==> labels == []
    ensures NoDuplicates(labels)
    ensures items.Some? ==> forall i | 0 <= i < |items.value| :: Label(items.value[i]) in labels
    ensures items.Some? ==> forall l | l in labels :: exists i | 0 <= i < |items.value| :: Label(items.value[i]) == l
  {
    match items
    case None => []
    case Some(drafts) =>
      var all := AllLabels(drafts);
      var labels := Distinct(all);
      assert forall l | l in labels :: exists i | 0 <= i < |drafts| :: all[i] == l;
      labels
  }

  /** A single item yields its own label, once. */
  lemma SingleItemLabel(item: ItemDto)
    ensures DistinctLabels(Some([item])) == [Label(item)]
  {
    var all := AllLabels([item]);
    assert all == [Label(item)];
    assert all[1..] == [];
    assert DistinctExcept(all, {}) == [Label(item)] + DistinctExcept(all[1..], {Label(item)});
  }

  /** The category table's rows carry increasing ids, all handed out already. */
  ghost predicate WellFormed(table: Table<Category>) {
    && (forall i, j | 0 <= i < j < |table.rows| :: table.rows[i].id < table.rows[j].id)
    && (forall i | 0 <= i < |table.rows| :: table.rows[i].id <= table.lastId)
  }

  /** The lookup's test `c.Name.ToLower() == catName.ToLower()`, each side lowered where it runs. */
  predicate Matches(name: string, catName: string) {
    StoredLower(name) == LabelLower(catName)
  }

  /** What one label resolves to: a category the lookup matched, or one created under the label. */
  predicate Serves(name: string, catName: string) {
    Matches(name, catName) || name == catName
  }

  /** The lookup for a row's name never finds an earlier row. */
  ghost predicate LookupUnique(rows: seq<Category>) {
    forall i, j | 0 <= i < j < |rows| :: !Matches(rows[i].name, rows[j].name)
  }

  /** No two categories have names whose stored lower-casings are equal. */
  ghost predicate CaseUnique(rows: seq<Category>) {
    forall i, j | 0 <= i < j < |rows| :: StoredLower(rows[i].name) != StoredLower(rows[j].name)
  }

  /** `FirstOrDefault(c => c.Name.ToLower() == catName.ToLower())`. */
  function FindCategory(rows: seq<Category>, catName: string): (r: Option<Category>)
    ensures r.None? <==> forall i | 0 <= i < |rows| :: !Matches(rows[i].name, catName)
    ensures r.Some? ==> exists k | 0 <= k < |rows| ::
      && rows[k] == r.value
      && Matches(rows[k].name, catName)
      && forall i | 0 <= i < k :: !Matches(rows[i].name, catName)
  {
    var k := FirstIndex(rows, (c: Category) => Matches(c.name, catName));
    if k == -1 then None else Some(rows[k])
  }

  /** The category one label resolves to, and the table after the step. */
  datatype Lookup = Lookup(category: Category, table: Table<Category>)

  /**
   * One pass of the loop: reuse the first category the lookup matches, or insert and save a
   * new one named exactly by the label.
   */
  function FindOrCreate(table: Table<Category>, catName: string): (r: Lookup)
    ensures Serves(r.category.name, catName)
    ensures r.category in r.table.rows
    // a match: that category, and the table is untouched
    ensures FindCategory(table.rows, catName).Some? ==>
      r.table == table && r.category == FindCategory(table.rows, catName).value
    // no match: exactly one new row, with the next id and the label as its name
    ensures FindCategory(table.rows, catName).None? ==>
      && r.category == Category(table.lastId + 1, catName)
      && r.table == Table(table.rows + [r.category], table.lastId + 1)
  {
    match FindCategory(table.rows, catName)
    case Some(existing) => Lookup(existing, table)
    case None =>
      var created := Category(table.lastId + 1, catName);
      Lookup(created, Table(table.rows + [created], created.id))
  }

  /**
   * An ASCII label that matches nothing creates a category named by it. A later label that
   * .NET lowers the same way (the same name in another casing) finds that category and creates
   * nothing more.
   */
  lemma CreatedCategoryIsReused(table: Table<Category>, catName: string, later: string)
    requires forall c | c in table.rows :: !Matches(c.name, catName)
    requires LabelLower(later) == LabelLower(catName)
    requires IsAscii(catName)
    ensures var first := FindOrCreate(table, catName);
      && first.table.rows == table.rows + [first.category]
      && FindOrCreate(first.table, later) == Lookup(first.category, first.table)
  {
    var rows := table.rows;
    assert FindCategory(rows, catName).None? by {
      forall i | 0 <= i < |rows|
        ensures !Matches(rows[i].name, catName)
      {
        assert rows[i] in rows;
      }
    }
    var first := FindOrCreate(table, catName);
    AsciiLowerAgrees(catName);
    assert FindCategory(first.table.rows, later) == Some(first.category) by {
      forall i | 0 <= i < |rows|
        ensures !Matches(first.table.rows[i].name, later)
      {
        assert first.table.rows[i] == rows[i];
        assert rows[i] in rows;
      }
    }
  }

  /**
   * A label whose two lower-casings differ does not match the category created under it, so
   * the same label again creates a second category with the same name.
   */
  lemma UnmatchedNameIsCreatedAgain(table: Table<Category>, catName: string)
    requires forall c | c in table.rows :: !Matches(c.name, catName)
    requires StoredLower(catName) != LabelLower(catName)
    ensures var first := FindOrCreate(table, catName);
      var second := FindOrCreate(first.table, catName);
      && first.table.rows == table.rows + [first.category]
      && second.table.rows == first.table.rows + [second.category]
      && first.category.name == second.category.name == catName
      && first.category.id < second.category.id
  {
    var rows := table.rows;
    assert FindCategory(rows, catName).None? by {
      forall i | 0 <= i < |rows|
        ensures !Matches(rows[i].name, catName)
      {
        assert rows[i] in rows;
      }
    }
    var first := FindOrCreate(table, catName);
    assert FindCategory(first.table.rows, catName).None? by {
      forall i | 0 <= i < |first.table.rows|
        ensures !Matches(first.table.rows[i].name, catName)
      {
        if i < |rows| {
          assert first.table.rows[i] == rows[i] && rows[i] in rows;
        }
      }
    }
  }

  /** The label-to-category dictionary built by the loop, and the table after it. */
  datatype Resolution = Resolution(categoryMap: map<string, Category>, table: Table<Category>)

  /** Every row of `before` is still in `after`, at the same position: rows are only appended. */
  ghost predicate Extends(after: seq<Category>, before: seq<Category>) {
    |before| <= |after| && forall k | 0 <= k < |before| :: after[k] == before[k]
  }

  /**
   * The `foreach` over the distinct labels. Rows are only appended, and each appended row is
   * named by one of the labels and has an id never handed out before.
   */
  function ResolveLabels(labels: seq<string>, table: Table<Category>, categoryMap: map<string, Category>): (r: Resolution)
    ensures Extends(r.table.rows, table.rows)
    ensures table.lastId <= r.table.lastId
    ensures forall k | |table.rows| <= k < |r.table.rows| ::
      r.table.rows[k].name in labels && table.lastId < r.table.rows[k].id <= r.table.lastId
    decreases |labels|
  {
    if |labels| == 0 then
      Resolution(categoryMap, table)
    else
      var step := FindOrCreate(table, labels[0]);
      ResolveLabels(labels[1..], step.table, categoryMap[labels[0] := step.category])
  }

  /** Every label of the batch is a key of the dictionary after the loop. */
  lemma {:induction false} ResolveKeys(labels: seq<string>, table: Table<Category>, categoryMap: map<string, Category>)
    ensures var m := ResolveLabels(labels, table, categoryMap).categoryMap;
      m.Keys == categoryMap.Keys + set l | l in labels
    decreases |labels|
  {
    if |labels| > 0 {
      var step := FindOrCreate(table, labels[0]);
      ResolveKeys(labels[1..], step.table, categoryMap[labels[0] := step.category]);
      assert forall l :: l in labels <==> l == labels[0] || l in labels[1..];
    }
  }

  /** Resolving a single label is one find-or-create step. */
  lemma ResolveSingle(catName: string, table: Table<Category>, categoryMap: map<string, Category>)
    ensures var step := FindOrCreate(table, catName);
      ResolveLabels([catName], table, categoryMap) == Resolution(categoryMap[catName := step.category], step.table)
  {
    assert [catName][1..] == [];
  }

  /**
   * After the loop every label is mapped to a stored category that serves it (the lookup
   * matched it, or it was created under the label), and keys that are not labels keep their
   * old value.
   */
  lemma {:induction false} ResolveMapsEveryLabel(labels: seq<string>, table: Table<Category>, categoryMap: map<string, Category>)
    ensures var r := ResolveLabels(labels, table, categoryMap);
      forall l | l in labels ::
        l in r.categoryMap && r.categoryMap[l] in r.table.rows && Serves(r.categoryMap[l].name, l)
    ensures var r := ResolveLabels(labels, table, categoryMap);
      forall l | l in categoryMap && l !in labels :: l in r.categoryMap && r.categoryMap[l] == categoryMap[l]
    decreases |labels|
  {
    if |labels| > 0 {
      var step := FindOrCreate(table, labels[0]);
      var map1 := categoryMap[labels[0] := step.category];
      var r := ResolveLabels(labels[1..], step.table, map1);
      assert r == ResolveLabels(labels, table, categoryMap);
      ResolveMapsEveryLabel(labels[1..], step.table, map1);
      if labels[0] !in labels[1..] {
        assert r.categoryMap[labels[0]] == step.category;
        var k :| 0 <= k < |step.table.rows| && step.table.rows[k] == step.category;
        assert r.table.rows[k] == step.category;
      }
      forall l | l in labels
        ensures l in r.categoryMap && r.categoryMap[l] in r.table.rows && Serves(r.categoryMap[l].name, l)
      {
        if l != labels[0] {
          assert l in labels[1..];
        }
      }
    }
  }

  /** Resolution keeps the table well formed: ids stay increasing and below the counter. */
  lemma {:induction false} ResolveKeepsWellFormed(labels: seq<string>, table: Table<Category>, categoryMap: map<string, Category>)
    requires WellFormed(table)
    ensures WellFormed(ResolveLabels(labels, table, categoryMap).table)
    decreases |labels|
  {
    if |labels| > 0 {
      var step := FindOrCreate(table, labels[0]);
      if FindCategory(table.rows, labels[0]).None? {
        var rows := step.table.rows;
        var n := |table.rows|;
        assert rows == table.rows + [step.category];
        assert forall i | 0 <= i < n :: rows[i] == table.rows[i];
        assert rows[n].id == table.lastId + 1;
        assert forall i, j | 0 <= i < j < |rows| :: rows[i].id < rows[j].id by {
          forall i, j | 0 <= i < j < |rows|
            ensures rows[i].id < rows[j].id
          {
            if j < n {
              assert rows[i] == table.rows[i] && rows[j] == table.rows[j];
            } else {
              assert rows[i] == table.rows[i];
            }
          }
        }
        assert WellFormed(step.table);
      }
      ResolveKeepsWellFormed(labels[1..], step.table, categoryMap[labels[0] := step.category]);
    }
  }

  /** The lookup for the name of a row from position `n` on finds no earlier row. */
  ghost predicate NewRowsUnmatched(rows: seq<Category>, n: nat) {
    forall i, k | 0 <= i < k < |rows| && n <= k :: !Matches(rows[i].name, rows[k].name)
  }

  /**
   * A row is created only when the lookup finds nothing: no new row is one the lookup for its
   * own name would have found among the rows before it, old or new.
   */
  lemma {:induction false} ResolveCreatesNoCaseDuplicates(labels: seq<string>, table: Table<Category>, categoryMap: map<string, Category>)
    ensures NewRowsUnmatched(ResolveLabels(labels, table, categoryMap).table.rows, |table.rows|)
    decreases |labels|
  {
    if |labels| > 0 {
      var step := FindOrCreate(table, labels[0]);
      var map1 := categoryMap[labels[0] := step.category];
      var rows := ResolveLabels(labels[1..], step.table, map1).table.rows;
      assert rows == ResolveLabels(labels, table, categoryMap).table.rows;
      ResolveCreatesNoCaseDuplicates(labels[1..], step.table, map1);
      if FindCategory(table.rows, labels[0]).None? {
        // the one row this step adds is unmatched by the older rows, and the recursion covers the later ones
        var n := |table.rows|;
        assert step.table.rows[n] == step.category;
        assert rows[n] == step.category;
        forall i, k | 0 <= i < k < |rows| && n <= k
          ensures !Matches(rows[i].name, rows[k].name)
        {
          if k == n {
            assert rows[i] == table.rows[i] == step.table.rows[i];
          }
        }
      } else {
        assert |step.table.rows| == |table.rows|;
      }
    }
  }

  /** A lookup-unique table stays lookup-unique however many labels are resolved against it. */
  lemma ResolveKeepsLookupUnique(labels: seq<string>, table: Table<Category>, categoryMap: map<string, Category>)
    requires LookupUnique(table.rows)
    ensures LookupUnique(ResolveLabels(labels, table, categoryMap).table.rows)
  {
    var rows := ResolveLabels(labels, table, categoryMap).table.rows;
    ResolveCreatesNoCaseDuplicates(labels, table, categoryMap);
    forall i, j | 0 <= i < j < |rows|
      ensures !Matches(rows[i].name, rows[j].name)
    {
      if j < |table.rows| {
        assert rows[i] == table.rows[i] && rows[j] == table.rows[j];
      }
    }
  }

  /**
   * Among ASCII names, lookup-uniqueness is case-uniqueness: no two rows lower to the same
   * name on the SQLite side.
   */
  lemma LookupUniqueIsCaseUnique(rows: seq<Category>)
    requires LookupUnique(rows)
    requires forall i | 0 <= i < |rows| :: IsAscii(rows[i].name)
    ensures CaseUnique(rows)
  {
    forall i, j | 0 <= i < j < |rows|
      ensures StoredLower(rows[i].name) != StoredLower(rows[j].name)
    {
      AsciiLowerAgrees(rows[j].name);
      assert !Matches(rows[i].name, rows[j].name);
    }
  }

  /**
   * When every label already has a match in the table, resolution creates nothing: the table
   * comes back unchanged.
   */
  lemma {:induction false} ResolveMatchedCreatesNothing(labels: seq<string>, table: Table<Category>, categoryMap: map<string, Category>)
    requires forall l | l in labels :: FindCategory(table.rows, l).Some?
    ensures ResolveLabels(labels, table, categoryMap).table == table
    decreases |labels|
  {
    if |labels| > 0 {
      var step := FindOrCreate(table, labels[0]);
      assert step.table == table;
      ResolveMatchedCreatesNothing(labels[1..], table, categoryMap[labels[0] := step.category]);
    }
  }

  /**
   * Resolving a later batch creates nothing when each of its labels lowers (.NET side) like an
   * ASCII label of the first batch: the same ASCII labels again, in any casing.
   */
  lemma ResolveIdempotent(labels: seq<string>, again: seq<string>, table: Table<Category>, categoryMap: map<string, Category>, otherMap: map<string, Category>)
    requires forall l | l in again :: exists m | m in labels ::
      LabelLower(l) == LabelLower(m) && IsAscii(m)
    ensures var first := ResolveLabels(labels, table, categoryMap).table;
      ResolveLabels(again, first, otherMap).table == first
  {
    var first := ResolveLabels(labels, table, categoryMap);
    forall l | l in again
      ensures FindCategory(first.table.rows, l).Some?
    {
      var m :| m in labels && LabelLower(l) == LabelLower(m) && IsAscii(m);
      ResolvedAsciiLabelIsFound(labels, table, categoryMap, m, l);
    }
    ResolveMatchedCreatesNothing(again, first.table, otherMap);
  }

  /** After resolution, a label lowering like a resolved ASCII label has a match in the table. */
  lemma ResolvedAsciiLabelIsFound(labels: seq<string>, table: Table<Category>, categoryMap: map<string, Category>, m: string, l: string)
    requires m in labels && IsAscii(m) && LabelLower(l) == LabelLower(m)
    ensures FindCategory(ResolveLabels(labels, table, categoryMap).table.rows, l).Some?
  {
    var first := ResolveLabels(labels, table, categoryMap);
    AsciiLowerAgrees(m);
    ResolveMapsEveryLabel(labels, table, categoryMap);
    var c := first.categoryMap[m];
    var k :| 0 <= k < |first.table.rows| && first.table.rows[k] == c;
    assert Matches(first.table.rows[k].name, l);
  }

  /**
   * A stored "Çay" is not found by the lookup for the label "Çay": SQLite keeps the Ç while
   * .NET lowers it, so resolving the label adds a second "Çay" row.
   */
  lemma StoredNonAsciiNameIsNotReused(categoryMap: map<string, Category>)
    ensures var table := Table([Category(1, "\U{C7}ay")], 1);
      ResolveLabels(["\U{C7}ay"], table, categoryMap).table.rows
        == [Category(1, "\U{C7}ay"), Category(2, "\U{C7}ay")]
  {
    var table := Table([Category(1, "\U{C7}ay")], 1);
    NonAsciiCapitalDisagrees('\U{C7}', "ay");
    assert FindCategory(table.rows, "\U{C7}ay").None?;
    ResolveSingle("\U{C7}ay", table, categoryMap);
  }

  /**
   * A stored "Молоко" (Cyrillic) is not found for the label "Молоко" either: .NET lowers the
   * Cyrillic capital М and SQLite does not.
   */
  lemma StoredCyrillicNameIsNotFound()
    ensures FindCategory([Category(1, "\U{41C}\U{43E}\U{43B}\U{43E}\U{43A}\U{43E}")],
      "\U{41C}\U{43E}\U{43B}\U{43E}\U{43A}\U{43E}").None?
  {
    NonAsciiCapitalDisagrees('\U{41C}', "\U{43E}\U{43B}\U{43E}\U{43A}\U{43E}");
  }
}

=== FILE: controller.dfy ===
/**
 * `ReceiptController`: the body of the upload handler once the analysis is in hand (the
 * sentinel check, the category step, the receipt assembly and the catch-all handler), and the
 * mapping of the service answers to replies for the report and delete endpoints.
 *
 * The store is the two tables the handler writes; `now` stands for `DateTime.UtcNow`.
 */
module ReceiptsController {
  import opened Wrappers
  import opened Seqs
  import opened Text
  import opened Entities
  import opened RetryPolicy
  import opened Analyzer
  import opened CategoryResolution
  import opened ReceiptService

  /** The tables the upload handler writes to. */
  datatype Store = Store(receipts: Table<Receipt>, categories: Table<Category>)

  /** The word whose presence in the store name is taken as an analyzer failure. */
  const Sentinel := "Hata"

  /** The exceptions the handler's catch-all can meet. */
  datatype Fault =
    | NullReference     // `analysis.StoreName.Contains(..)` on a null store name
    | ArgumentNull      // `categoryMap[null]`
    | KeyNotFound       // `categoryMap[label]` for a label that is not a key

  /** What the upload answers. */
  datatype UploadReply =
      // 200: the receipt was stored under `receiptId`
    | Saved(receiptId: nat, userId: int, analysis: ReceiptAnalysis)
      // 500 with the analysis' own text, from the sentinel check
    | AnalyzerError(rawText: string)
      // 500 from the catch-all handler
    | ServerError(fault: Fault)

  /** The reply and the store afterwards. */
  datatype Upload = Upload(reply: UploadReply, store: Store)

  /**
   * The `Select` that turns the drafts into line items. The dictionary is indexed with the raw
   * label, so a draft whose label is null throws instead of using the fallback bucket.
   */
  function AssembleLineItems(drafts: seq<ItemDto>, categoryMap: map<string, Category>): (r: Result<seq<LineItem>, Fault>)
    ensures r.Success? <==> forall i | 0 <= i < |drafts| ::
      drafts[i].category.Some? && drafts[i].category.value in categoryMap
    ensures r.Success? ==> |r.value| == |drafts|
    ensures r.Success? ==> forall i | 0 <= i < |drafts| :: Copies(r.value[i], drafts[i], categoryMap)
    ensures r.Failure? && r.error == ArgumentNull ==> exists i | 0 <= i < |drafts| :: drafts[i].category.None?
    // when every label present is a key, a null label is what fails, and it fails as ArgumentNull
    ensures (exists i | 0 <= i < |drafts| :: drafts[i].category.None?)
      && (forall i | 0 <= i < |drafts| && drafts[i].category.Some? :: drafts[i].category.value in categoryMap)
      ==> r == Failure(ArgumentNull)
    decreases |drafts|
  {
    if |drafts| == 0 then
      Success([])
    else
      var d := drafts[0];
      if d.category.None? then
        Failure(ArgumentNull)
      else if d.category.value !in categoryMap then
        Failure(KeyNotFound)
      else
        var rest := AssembleLineItems(drafts[1..], categoryMap);
        assert forall i | 0 < i < |drafts| :: drafts[i] == drafts[1..][i - 1];
        if rest.Failure? then
          rest
        else
          Success([LineItem(d.itemName, d.quantity, d.unitPrice, d.totalLineAmount, categoryMap[d.category.value])] + rest.value)
  }

  /** The line item copies the draft's name and amounts and takes the category its label maps to. */
  ghost predicate Copies(li: LineItem, d: ItemDto, categoryMap: map<string, Category>) {
    && li.itemName == d.itemName
    && li.quantity == d.quantity
    && li.unitPrice == d.unitPrice
    && li.totalLineAmount == d.totalLineAmount
    && d.category.Some? && d.category.value in categoryMap
    && li.category == categoryMap[d.category.value]
  }

  /** The line items of the receipt: one per draft, or none when the list itself is null. */
  function LineItemsOf(lineItems: Option<seq<ItemDto>>, categoryMap: map<string, Category>): (r: Result<seq<LineItem>, Fault>)
    ensures lineItems.None? ==> r == Success([])
  {
    match lineItems
    case None => Success([])
    case Some(drafts) => AssembleLineItems(drafts, categoryMap)
  }

  /**
   * `AnalyzeReceipt` from line 68 on: the sentinel check, the category step, the assembly and
   * the save, all inside the `try` whose `catch` answers 500. A failure after the category
   * step keeps the categories it saved.
   */
  function AnalyzeReceipt(userId: int, analysis: ReceiptAnalysis, store: Store, now: DateTime): (u: Upload)
    // a null store name throws at the sentinel check: 500, nothing written
    ensures analysis.storeName.None? ==> u == Upload(ServerError(NullReference), store)
    // a store name containing the sentinel: 500 with the analysis text, nothing written
    ensures analysis.storeName.Some? && Contains(analysis.storeName.value, Sentinel) ==>
      u == Upload(AnalyzerError(analysis.rawText), store)
    // categories are only ever appended
    ensures Extends(u.store.categories.rows, store.categories.rows)
    ensures store.categories.lastId <= u.store.categories.lastId
    // receipts change only on success, by one appended receipt with the next id
    ensures !u.reply.Saved? ==> u.store.receipts == store.receipts
    ensures u.reply.Saved? ==>
      && u.reply.receiptId == store.receipts.lastId + 1
      && u.reply.userId == userId
      && u.store.receipts.lastId == u.reply.receiptId
      && |u.store.receipts.rows| == |store.receipts.rows| + 1
      && u.store.receipts.rows[..|store.receipts.rows|] == store.receipts.rows
      && u.store.receipts.rows[|store.receipts.rows|].id == u.reply.receiptId
  {
    match analysis.storeName
    case None => Upload(ServerError(NullReference), store)
    case Some(storeName) =>
      if Contains(storeName, Sentinel) then
        Upload(AnalyzerError(analysis.rawText), store)
      else
        var labels := DistinctLabels(analysis.lineItems);
        var resolved := ResolveLabels(labels, store.categories, map[]);
        var afterCategories := store.(categories := resolved.table);
        match LineItemsOf(analysis.lineItems, resolved.categoryMap)
        case Failure(fault) => Upload(ServerError(fault), afterCategories)
        case Success(items) =>
          var id := store.receipts.lastId + 1;
          var receipt := Receipt(id, userId, storeName, analysis.totalAmount.GetOr(0.0),
            analysis.receiptDate, now, analysis.rawText, items);
          var receipts := Table(store.receipts.rows + [receipt], id);
          assert receipts.rows[..|store.receipts.rows|] == store.receipts.rows;
          Upload(Saved(id, userId, analysis), afterCategories.(receipts := receipts))
  }

  /** The receipt a successful upload stored. */
  function StoredReceipt(u: Upload, store: Store): (r: Receipt)
    requires u.reply.Saved?
    requires |u.store.receipts.rows| == |store.receipts.rows| + 1
  {
    u.store.receipts.rows[|store.receipts.rows|]
  }

  /** Every draft has a label of its own: no item's category is null. */
  predicate AllLabelled(lineItems: Option<seq<ItemDto>>) {
    lineItems.None? || forall i | 0 <= i < |lineItems.value| :: lineItems.value[i].category.Some?
  }

  /**
   * An upload is stored exactly when the store name is present, does not contain the
   * sentinel, and no item has a null category.
   */
  lemma UploadSavedIff(userId: int, analysis: ReceiptAnalysis, store: Store, now: DateTime)
    ensures AnalyzeReceipt(userId, analysis, store, now).reply.Saved? <==>
      && analysis.storeName.Some?
      && !Contains(analysis.storeName.value, Sentinel)
      && AllLabelled(analysis.lineItems)
  {
    if analysis.storeName.Some? && !Contains(analysis.storeName.value, Sentinel) && analysis.lineItems.Some? {
      var drafts := analysis.lineItems.value;
      var labels := DistinctLabels(analysis.lineItems);
      var resolved := ResolveLabels(labels, store.categories, map[]);
      ResolveKeys(labels, store.categories, map[]);
      forall i | 0 <= i < |drafts| && drafts[i].category.Some?
        ensures drafts[i].category.value in resolved.categoryMap
      {
        assert Label(drafts[i]) == drafts[i].category.value;
      }
    }
  }

  /**
   * The stored receipt carries the caller's id, the analysed store name and date, the total
   * or 0 when it is null, the analysis text as its JSON, the upload time, and one line item
   * per draft in order, each bound to a stored category whose name matches the draft's label
   * ignoring case.
   */
  lemma UploadedReceiptFields(userId: int, analysis: ReceiptAnalysis, store: Store, now: DateTime)
    ensures var u := AnalyzeReceipt(userId, analysis, store, now);
      u.reply.Saved? ==>
        var r := StoredReceipt(u, store);
        && r.id == u.reply.receiptId
        && r.userId == userId
        && Some(r.storeName) == analysis.storeName
        && r.receiptDate == analysis.receiptDate
        && r.totalAmount == analysis.totalAmount.GetOr(0.0)
        && r.rawJson == analysis.rawText
        && r.uploadedAt == now
        && (analysis.lineItems.None? ==> r.lineItems == [])
        && (analysis.lineItems.Some? ==> |r.lineItems| == |analysis.lineItems.value|)
        && forall i | 0 <= i < |r.lineItems| ::
          && analysis.lineItems.Some?
          && var d := analysis.lineItems.value[i];
          && r.lineItems[i].itemName == d.itemName
          && r.lineItems[i].quantity == d.quantity
          && r.lineItems[i].unitPrice == d.unitPrice
          && r.lineItems[i].totalLineAmount == d.totalLineAmount
          && r.lineItems[i].category in u.store.categories.rows
          && d.category.Some?
          && Serves(r.lineItems[i].category.name, d.category.value)
  {
    var u := AnalyzeReceipt(userId, analysis, store, now);
    if u.reply.Saved? && analysis.lineItems.Some? {
      var drafts := analysis.lineItems.value;
      var labels := DistinctLabels(analysis.lineItems);
      var resolved := ResolveLabels(labels, store.categories, map[]);
      ResolveMapsEveryLabel(labels, store.categories, map[]);
      var r := StoredReceipt(u, store);
      assert AssembleLineItems(drafts, resolved.categoryMap).Success?;
      forall i | 0 <= i < |r.lineItems|
        ensures r.lineItems[i].category in u.store.categories.rows
        ensures Serves(r.lineItems[i].category.name, drafts[i].category.value)
      {
        assert Copies(r.lineItems[i], drafts[i], resolved.categoryMap);
        assert Label(drafts[i]) == drafts[i].category.value;
      }
    }
  }

  /**
   * A null category label fails the upload with a 500 from the dictionary's null-key
   * exception, yet the fallback category the label step created for it is already saved: the
   * category table keeps a row matching "Diğer" while no receipt is added.
   */
  lemma NullCategoryFailsUpload(userId: int, analysis: ReceiptAnalysis, store: Store, now: DateTime, i: nat)
    requires analysis.storeName.Some? && !Contains(analysis.storeName.value, Sentinel)
    requires analysis.lineItems.Some? && i < |analysis.lineItems.value|
    requires analysis.lineItems.value[i].category.None?
    ensures var u := AnalyzeReceipt(userId, analysis, store, now);
      && u.reply == ServerError(ArgumentNull)
      && u.store.receipts == store.receipts
      && exists c | c in u.store.categories.rows :: Serves(c.name, FallbackLabel)
  {
    var labels := DistinctLabels(analysis.lineItems);
    var resolved := ResolveLabels(labels, store.categories, map[]);
    ResolveMapsEveryLabel(labels, store.categories, map[]);
    assert Label(analysis.lineItems.value[i]) == FallbackLabel;
    var drafts := analysis.lineItems.value;
    ResolveKeys(labels, store.categories, map[]);
    forall k | 0 <= k < |drafts| && drafts[k].category.Some?
      ensures drafts[k].category.value in resolved.categoryMap
    {
      assert Label(drafts[k]) == drafts[k].category.value;
    }
    UploadSavedIff(userId, analysis, store, now);
    var c := resolved.categoryMap[FallbackLabel];
    assert c in AnalyzeReceipt(userId, analysis, store, now).store.categories.rows;
  }

  /**
   * A store name that merely contains "Hata" (a shop in Hatay, say) is refused as if the
   * analyzer had failed.
   */
  lemma SentinelRejectsGenuineStoreName(userId: int, analysis: ReceiptAnalysis, store: Store, now: DateTime)
    requires analysis.storeName == Some("Hatay Market")
    ensures AnalyzeReceipt(userId, analysis, store, now) == Upload(AnalyzerError(analysis.rawText), store)
  {
    assert StartsWith("Hatay Market", Sentinel);
  }

  /**
   * Whatever goes wrong in the analyzer (a failed status after the retries, a network error,
   * an exception, a payload that does not decode), its diagnostic has no store name, so the
   * sentinel check throws and the upload answers 500 without writing anything.
   */
  lemma FailedAnalysisStoresNothing(
    answers: seq<HttpAnswer>, extract: string -> Envelope, deserialize: string -> Decoded,
    userId: int, store: Store, now: DateTime)
    requires |answers| == MaxAttempts
    requires IsDiagnostic(AnalyzeReceiptImage(answers, extract, deserialize))
    ensures AnalyzeReceipt(userId, AnalyzeReceiptImage(answers, extract, deserialize), store, now)
      == Upload(ServerError(NullReference), store)
  {
  }

  /** Four failing responses in a row end the upload with a 500 and an untouched store. */
  lemma ExhaustedRetriesStoreNothing(
    answers: seq<HttpAnswer>, extract: string -> Envelope, deserialize: string -> Decoded,
    userId: int, store: Store, now: DateTime)
    requires |answers| == MaxAttempts
    requires forall k | 0 <= k < |answers| :: Handles(answers[k])
    ensures AnalyzeReceipt(userId, AnalyzeReceiptImage(answers, extract, deserialize), store, now)
      == Upload(ServerError(NullReference), store)
  {
    ExhaustedRetriesReturnLastFailure(answers);
  }

  /** A stored upload adds exactly its total to the caller's spending and one to their count. */
  lemma UploadAddsToTotal(userId: int, analysis: ReceiptAnalysis, store: Store, now: DateTime)
    ensures var u := AnalyzeReceipt(userId, analysis, store, now);
      u.reply.Saved? ==>
        && TotalOf(OwnedBy(u.store.receipts.rows, userId))
           == TotalOf(OwnedBy(store.receipts.rows, userId)) + analysis.totalAmount.GetOr(0.0)
        && |OwnedBy(u.store.receipts.rows, userId)| == |OwnedBy(store.receipts.rows, userId)| + 1
  {
    var u := AnalyzeReceipt(userId, analysis, store, now);
    if u.reply.Saved? {
      UploadedReceiptFields(userId, analysis, store, now);
      var r := StoredReceipt(u, store);
      var rows := store.receipts.rows;
      assert u.store.receipts.rows == rows + [r];
      OwnedByAppend(rows, [r], userId);
      assert OwnedBy([r], userId) == [r] by {
        assert [r][..0] == [];
      }
      TotalOfAppend(OwnedBy(rows, userId), [r]);
      assert TotalOf([r]) == r.totalAmount by {
        assert [r][..0] == [];
      }
    }
  }

  /** A stored upload leaves every other user's receipts as they were. */
  lemma UploadSparesOtherUsers(userId: int, analysis: ReceiptAnalysis, store: Store, now: DateTime, other: int)
    requires other != userId
    ensures OwnedBy(AnalyzeReceipt(userId, analysis, store, now).store.receipts.rows, other)
      == OwnedBy(store.receipts.rows, other)
  {
    var u := AnalyzeReceipt(userId, analysis, store, now);
    if u.reply.Saved? {
      UploadedReceiptFields(userId, analysis, store, now);
      var r := StoredReceipt(u, store);
      assert u.store.receipts.rows == store.receipts.rows + [r];
      OwnedByAppend(store.receipts.rows, [r], other);
      assert OwnedBy([r], other) == [] by {
        assert [r][..0] == [];
      }
    }
  }

  /**
   * A receipt with a single labelled item: it is stored, its one line item is bound to the
   * category the find-or-create step returns, and the category table is the one that step left.
   */
  lemma SingleItemUpload(userId: int, analysis: ReceiptAnalysis, store: Store, now: DateTime, item: ItemDto)
    requires analysis.storeName.Some? && !Contains(analysis.storeName.value, Sentinel)
    requires analysis.lineItems == Some([item]) && item.category.Some?
    ensures var u := AnalyzeReceipt(userId, analysis, store, now);
      var step := FindOrCreate(store.categories, item.category.value);
      && u.reply.Saved?
      && u.store.categories == step.table
      && |StoredReceipt(u, store).lineItems| == 1
      && StoredReceipt(u, store).lineItems[0].category == step.category
  {
    SingleItemLabel(item);
    ResolveSingle(item.category.value, store.categories, map[]);
    UploadSavedIff(userId, analysis, store, now);
    var u := AnalyzeReceipt(userId, analysis, store, now);
    var step := FindOrCreate(store.categories, item.category.value);
    var items := AssembleLineItems([item], map[item.category.value := step.category]);
    assert Copies(items.value[0], item, map[item.category.value := step.category]);
  }

  /**
   * Two uploads by different users, one labelling an item "Dairy" and the other "dairy":
   * the second reuses the category the first created, so exactly one category is added.
   */
  lemma CaseVariantLabelsShareCategory(store: Store, now: DateTime, first: ItemDto, second: ItemDto)
    requires forall c | c in store.categories.rows :: !Matches(c.name, "Dairy")
    requires first.category == Some("Dairy") && second.category == Some("dairy")
    ensures var a := ReceiptAnalysis(Some("Migros"), DefaultDateTime, Some(10.0), "{}", Some([first]));
      var b := ReceiptAnalysis(Some("Migros"), DefaultDateTime, Some(20.0), "{}", Some([second]));
      var u1 := AnalyzeReceipt(1, a, store, now);
      var u2 := AnalyzeReceipt(2, b, u1.store, now);
      && u1.reply.Saved? && u2.reply.Saved?
      && |u2.store.categories.rows| == |store.categories.rows| + 1
      && StoredReceipt(u1, store).lineItems[0].category == StoredReceipt(u2, u1.store).lineItems[0].category
  {
    var a := ReceiptAnalysis(Some("Migros"), DefaultDateTime, Some(10.0), "{}", Some([first]));
    var b := ReceiptAnalysis(Some("Migros"), DefaultDateTime, Some(20.0), "{}", Some([second]));
    assert !Contains("Migros", Sentinel) by {
      MissingCharNotContained("Migros", Sentinel);
    }
    assert LabelLower("dairy") == LabelLower("Dairy") by {
      forall i | 0 <= i < 5
        ensures LabelLower("dairy")[i] == LabelLower("Dairy")[i]
      {
        LabelLowerAt("dairy", i);
        LabelLowerAt("Dairy", i);
      }
    }
    CreatedCategoryIsReused(store.categories, "Dairy", "dairy");
    SingleItemUpload(1, a, store, now, first);
    SingleItemUpload(2, b, AnalyzeReceipt(1, a, store, now).store, now, second);
  }

  /**
   * Two uploads both labelling an item "Çay" add two categories named "Çay": SQLite keeps the
   * Ç of the stored name while .NET lowers the label's, so the second lookup misses the first
   * upload's category.
   */
  lemma RepeatedNonAsciiLabelDuplicatesCategory(store: Store, now: DateTime, first: ItemDto, second: ItemDto)
    requires forall c | c in store.categories.rows :: !Matches(c.name, "\U{C7}ay")
    requires first.category == Some("\U{C7}ay") && second.category == Some("\U{C7}ay")
    ensures var a := ReceiptAnalysis(Some("Migros"), DefaultDateTime, Some(10.0), "{}", Some([first]));
      var b := ReceiptAnalysis(Some("Migros"), DefaultDateTime, Some(20.0), "{}", Some([second]));
      var u1 := AnalyzeReceipt(1, a, store, now);
      var u2 := AnalyzeReceipt(2, b, u1.store, now);
      && u1.reply.Saved? && u2.reply.Saved?
      && |u2.store.categories.rows| == |store.categories.rows| + 2
      && var c1 := StoredReceipt(u1, store).lineItems[0].category;
         var c2 := StoredReceipt(u2, u1.store).lineItems[0].category;
         c1.name == c2.name == "\U{C7}ay" && c1.id != c2.id
  {
    var a := ReceiptAnalysis(Some("Migros"), DefaultDateTime, Some(10.0), "{}", Some([first]));
    var b := ReceiptAnalysis(Some("Migros"), DefaultDateTime, Some(20.0), "{}", Some([second]));
    assert !Contains("Migros", Sentinel) by {
      MissingCharNotContained("Migros", Sentinel);
    }
    NonAsciiCapitalDisagrees('\U{C7}', "ay");
    UnmatchedNameIsCreatedAgain(store.categories, "\U{C7}ay");
    var step1 := FindOrCreate(store.categories, "\U{C7}ay");
    var step2 := FindOrCreate(step1.table, "\U{C7}ay");
    SingleItemUpload(1, a, store, now, first);
    var u1 := AnalyzeReceipt(1, a, store, now);
    assert u1.store.categories == step1.table;
    SingleItemUpload(2, b, u1.store, now, second);
    var u2 := AnalyzeReceipt(2, b, u1.store, now);
    assert u2.store.categories == step2.table;
    assert StoredReceipt(u1, store).lineItems[0].category == step1.category;
    assert StoredReceipt(u2, u1.store).lineItems[0].category == step2.category;
  }

  /** `GetTotalSpent`'s replies: 200 with the numbers, or 404 when the service answers null. */
  datatype TotalSpentReply =
    | TotalSpentOk(userId: int, receiptCount: nat, totalSpent: Decimal, currency: string)
    | TotalSpentNotFound(userId: int)

  /** The controller's reply to the service's answer: 404 for null, else the numbers in lira. */
  function TotalSpentReplyOf(userId: int, result: Option<Totals>): TotalSpentReply {
    match result
    case None => TotalSpentNotFound(userId)
    case Some(t) => TotalSpentOk(userId, t.count, t.totalSpent, "TRY")
  }

  /**
   * `GetTotalSpent`: the service's answer mapped to a reply. The service never answers null,
   * so the 404 branch is never taken: a caller without receipts gets 200 with zeros.
   */
  method GetTotalSpent(rows: seq<Receipt>, userId: int) returns (reply: TotalSpentReply)
    ensures reply == TotalSpentOk(userId, |OwnedBy(rows, userId)|, TotalOf(OwnedBy(rows, userId)), "TRY")
    ensures |OwnedBy(rows, userId)| == 0 ==> reply == TotalSpentOk(userId, 0, 0.0, "TRY")
  {
    var result := GetUserTotalSpent(rows, userId);
    reply := TotalSpentReplyOf(userId, result);
  }

  /** The delete endpoint: 200 when the service removed the receipt, 404 otherwise. */
  datatype DeleteReply = DeleteOk | DeleteNotFound

  /**
   * `DeleteReceipt`: the reply and the rows afterwards. A 404 covers both a missing receipt and
   * someone else's, and leaves the rows as they were.
   */
  function DeleteEndpoint(rows: seq<Receipt>, receiptId: nat, userId: int): (r: (DeleteReply, seq<Receipt>))
    ensures r.0 == DeleteNotFound ==> r.1 == rows
    ensures r.0 == DeleteOk <==> exists k | 0 <= k < |rows| ::
      && rows[k].id == receiptId && rows[k].userId == userId
      && (forall j | 0 <= j < k :: rows[j].id != receiptId)
  {
    var d := DeleteReceipt(rows, receiptId, userId);
    (if d.deleted then DeleteOk else DeleteNotFound, d.rows)
  }

  /** The category summary endpoint: 404 for a null or empty report, else 200 with it. */
  datatype SummaryReply<T> = SummaryOk(report: seq<T>) | SummaryNotFound

  function CategorySummaryReply<T>(report: Option<seq<T>>): SummaryReply<T> {
    if report.None? || |report.value| == 0 then SummaryNotFound else SummaryOk(report.value)
  }
}

=== FILE: entities.dfy ===
/**
 * The records of the receipt pipeline: the persisted entities (Category, LineItem, Receipt,
 * User), the transient analysis returned by the vision service (ReceiptAnalysis with its item
 * drafts), and the auto-increment tables they are stored in.
 */
module Entities {
  import opened Wrappers

  /** `DateTime` as a tick count; `default(DateTime)` is tick 0. */
  datatype DateTime = DateTime(ticks: int)

  const DefaultDateTime := DateTime(0)

  /** C# `decimal` as an exact rational: sums are exact, there is no rounding. */
  type Decimal = real

  /** A spending category, shared by every user. */
  datatype Category = Category(id: nat, name: string)

  /** One purchased item of a stored receipt, bound to a category. */
  datatype LineItem = LineItem(
    itemName: string,
    quantity: Decimal,
    unitPrice: Decimal,
    totalLineAmount: Decimal,
    category: Category)

  /** A stored receipt; its line items are owned by it and live and die with it. */
  datatype Receipt = Receipt(
    id: nat,
    userId: int,
    storeName: string,
    totalAmount: Decimal,
    receiptDate: DateTime,
    uploadedAt: DateTime,
    rawJson: string,
    lineItems: seq<LineItem>)

  datatype User = User(
    id: nat,
    username: string,
    email: string,
    passwordHash: string,
    createdAt: DateTime)

  /** An item as the vision service reports it: the category is a free-text label, maybe null. */
  datatype ItemDto = ItemDto(
    itemName: string,
    quantity: Decimal,
    unitPrice: Decimal,
    totalLineAmount: Decimal,
    category: Option<string>)

  /** The analysis of one receipt image; store name, total and item list may all be null. */
  datatype ReceiptAnalysis = ReceiptAnalysis(
    storeName: Option<string>,
    receiptDate: DateTime,
    totalAmount: Option<Decimal>,
    rawText: string,
    lineItems: Option<seq<ItemDto>>)

  /**
   * A failed analysis: a fresh `ReceiptAnalysis` on which only `RawText` is set, every other
   * property keeping its default.
   */
  function Diagnostic(text: string): (a: ReceiptAnalysis)
    ensures IsDiagnostic(a) && a.rawText == text
  {
    ReceiptAnalysis(None, DefaultDateTime, None, text, None)
  }

  /** Nothing but the diagnostic text is set. */
  predicate IsDiagnostic(a: ReceiptAnalysis) {
    a.storeName.None? && a.receiptDate == DefaultDateTime && a.totalAmount.None? && a.lineItems.None?
  }

  /**
   * A table whose key is an SQLite AUTOINCREMENT column: the rows in storage order and the
   * largest id handed out so far, which is never handed out again.
   */
  datatype Table<T> = Table(rows: seq<T>, lastId: nat)
}

=== FILE: receipt_service.dfy ===
/**
 * `ReceiptService`: the per-user total and count, the per-user list, the listing of every
 * receipt, and deletion guarded by ownership, all over the receipts table in storage order.
 */
module ReceiptService {
  import opened Wrappers
  import opened Seqs
  import opened Entities

  /** `Where(r => r.UserId == userId)`: the user's receipts, in storage order. */
  function OwnedBy(rows: seq<Receipt>, userId: int): (owned: seq<Receipt>)
    ensures |owned| <= |rows|
  {
    if |rows| == 0 then
      []
    else
      var init := OwnedBy(rows[..|rows| - 1], userId);
      var last := rows[|rows| - 1];
      if last.userId == userId then init + [last] else init
  }

  /** `OwnedBy` keeps exactly the user's receipts: every kept one is theirs, and none of theirs is dropped. */
  lemma {:induction false} OwnedByMembers(rows: seq<Receipt>, userId: int)
    ensures forall i | 0 <= i < |OwnedBy(rows, userId)| ::
      OwnedBy(rows, userId)[i].userId == userId && OwnedBy(rows, userId)[i] in rows
    ensures forall i | 0 <= i < |rows| && rows[i].userId == userId :: rows[i] in OwnedBy(rows, userId)
  {
    if |rows| > 0 {
      var init := rows[..|rows| - 1];
      OwnedByMembers(init, userId);
      assert forall i | 0 <= i < |init| :: init[i] == rows[i];
    }
  }

  /** The exact sum of the receipts' totals. */
  function TotalOf(rows: seq<Receipt>): Decimal {
    if |rows| == 0 then 0.0 else TotalOf(rows[..|rows| - 1]) + rows[|rows| - 1].totalAmount
  }

  /** Filtering distributes over concatenation. */
  lemma {:induction false} OwnedByAppend(a: seq<Receipt>, b: seq<Receipt>, userId: int)
    ensures OwnedBy(a + b, userId) == OwnedBy(a, userId) + OwnedBy(b, userId)
    decreases |b|
  {
    if |b| == 0 {
      assert a + b == a;
    } else {
      var b' := b[..|b| - 1];
      assert (a + b)[..|a + b| - 1] == a + b';
      OwnedByAppend(a, b', userId);
    }
  }

  /** Summing distributes over concatenation. */
  lemma {:induction false} TotalOfAppend(a: seq<Receipt>, b: seq<Receipt>)
    ensures TotalOf(a + b) == TotalOf(a) + TotalOf(b)
    decreases |b|
  {
    if |b| == 0 {
      assert a + b == a;
    } else {
      var b' := b[..|b| - 1];
      assert (a + b)[..|a + b| - 1] == a + b';
      TotalOfAppend(a, b');
    }
  }

  /** One more row of the scan: the count and the sum grow by that row when the user owns it. */
  lemma OwnedByStep(rows: seq<Receipt>, i: nat, userId: int)
    requires i < |rows|
    ensures |OwnedBy(rows[..i + 1], userId)|
      == |OwnedBy(rows[..i], userId)| + (if rows[i].userId == userId then 1 else 0)
    ensures TotalOf(OwnedBy(rows[..i + 1], userId))
      == TotalOf(OwnedBy(rows[..i], userId)) + (if rows[i].userId == userId then rows[i].totalAmount else 0.0)
  {
    assert rows[..i + 1][..i] == rows[..i];
    var init := OwnedBy(rows[..i], userId);
    if rows[i].userId == userId {
      assert (init + [rows[i]])[..|init|] == init;
    }
  }

  /** The tuple `(TotalSpent, Count)` the service returns. */
  datatype Totals = Totals(totalSpent: Decimal, count: nat)

  /**
   * The first query, `SumAsync(r => (double?)r.TotalAmount)` over the user's receipts. EF Core
   * translates it to `COALESCE(SUM(..), 0)`, as LINQ's `Sum` over no values is 0, so the query
   * always yields a value: 0 for a user without receipts.
   */
  method SumOwned(rows: seq<Receipt>, userId: int) returns (sum: Decimal)
    ensures sum == TotalOf(OwnedBy(rows, userId))
    ensures |OwnedBy(rows, userId)| == 0 ==> sum == 0.0
  {
    sum := 0.0;
    var i := 0;
    while i < |rows|
      invariant 0 <= i <= |rows|
      invariant sum == TotalOf(OwnedBy(rows[..i], userId))
    {
      OwnedByStep(rows, i, userId);
      if rows[i].userId == userId {
        sum := sum + rows[i].totalAmount;
      }
      i := i + 1;
    }
    assert rows[..i] == rows;
  }

  /** The second query, `CountAsync(r => r.UserId == userId)`. */
  method CountOwned(rows: seq<Receipt>, userId: int) returns (count: nat)
    ensures count == |OwnedBy(rows, userId)|
  {
    count := 0;
    var i := 0;
    while i < |rows|
      invariant 0 <= i <= |rows|
      invariant count == |OwnedBy(rows[..i], userId)|
    {
      OwnedByStep(rows, i, userId);
      if rows[i].userId == userId {
        count := count + 1;
      }
      i := i + 1;
    }
    assert rows[..i] == rows;
  }

  /**
   * `GetUserTotalSpentAsync`: the sum of the user's totals, then their count. The sum is never
   * null, so the `HasValue` test always passes and its `(0, 0)` branch is never taken; a user
   * without receipts still gets `(0, 0)`, from a zero sum and a zero count. The method never
   * answers null.
   */
  method GetUserTotalSpent(rows: seq<Receipt>, userId: int) returns (result: Option<Totals>)
    ensures result.Some?
    ensures |OwnedBy(rows, userId)| == 0 ==> result == Some(Totals(0.0, 0))
    ensures result.value.totalSpent == TotalOf(OwnedBy(rows, userId))
    ensures result.value.count == |OwnedBy(rows, userId)|
  {
    var sum := SumOwned(rows, userId);
    var count := CountOwned(rows, userId);
    return Some(Totals(sum, count));
  }

  /** One row of the user's list: `new { r.Id, r.StoreName, r.TotalAmount, r.ReceiptDate, r.UploadedAt }`. */
  datatype ReceiptSummary = ReceiptSummary(
    id: nat,
    storeName: string,
    totalAmount: Decimal,
    receiptDate: DateTime,
    uploadedAt: DateTime)

  function Summarize(r: Receipt): ReceiptSummary {
    ReceiptSummary(r.id, r.storeName, r.totalAmount, r.receiptDate, r.uploadedAt)
  }

  /** `GetUserReceiptsListAsync`: exactly the user's receipts, in storage order, projected. */
  method GetUserReceiptsList(rows: seq<Receipt>, userId: int) returns (list: seq<ReceiptSummary>)
    ensures |list| == |OwnedBy(rows, userId)|
    ensures forall k | 0 <= k < |list| :: list[k] == Summarize(OwnedBy(rows, userId)[k])
    ensures forall k | 0 <= k < |list| :: exists r | r in rows :: r.userId == userId && Summarize(r) == list[k]
  {
    list := [];
    var i := 0;
    while i < |rows|
      invariant 0 <= i <= |rows|
      invariant |list| == |OwnedBy(rows[..i], userId)|
      invariant forall k | 0 <= k < |list| :: list[k] == Summarize(OwnedBy(rows[..i], userId)[k])
    {
      assert rows[..i + 1][..i] == rows[..i];
      if rows[i].userId == userId {
        list := list + [Summarize(rows[i])];
      }
      i := i + 1;
    }
    assert rows[..i] == rows;
    OwnedByMembers(rows, userId);
    forall k | 0 <= k < |list|
      ensures exists r | r in rows :: r.userId == userId && Summarize(r) == list[k]
    {
      var r := OwnedBy(rows, userId)[k];
      assert r in rows && r.userId == userId;
    }
  }

  /** `LineItemDto`: the name, the quantity and the line total; price and category are dropped. */
  datatype LineItemView = LineItemView(itemName: string, quantity: Decimal, totalLineAmount: Decimal)

  /** `ReceiptListDto`. */
  datatype ReceiptListing = ReceiptListing(
    id: nat,
    storeName: string,
    totalAmount: Decimal,
    receiptDate: DateTime,
    uploadedAt: DateTime,
    lineItems: seq<LineItemView>)

  function ViewLineItem(li: LineItem): LineItemView {
    LineItemView(li.itemName, li.quantity, li.totalLineAmount)
  }

  /** One `ReceiptListDto`, its line items projected to name, quantity and line total. */
  function ListReceipt(r: Receipt): (l: ReceiptListing)
    ensures |l.lineItems| == |r.lineItems|
    ensures forall j | 0 <= j < |r.lineItems| ::
      l.lineItems[j] == LineItemView(r.lineItems[j].itemName, r.lineItems[j].quantity, r.lineItems[j].totalLineAmount)
  {
    ReceiptListing(r.id, r.storeName, r.totalAmount, r.receiptDate, r.uploadedAt,
      seq(|r.lineItems|, j requires 0 <= j < |r.lineItems| => ViewLineItem(r.lineItems[j])))
  }

  /** `GetAllReceiptsAsync`: every receipt of every user, in storage order. */
  function GetAllReceipts(rows: seq<Receipt>): (listing: seq<ReceiptListing>)
    ensures |listing| == |rows|
    ensures forall i | 0 <= i < |rows| ::
      && listing[i].id == rows[i].id
      && listing[i].storeName == rows[i].storeName
      && listing[i].totalAmount == rows[i].totalAmount
      && listing[i].receiptDate == rows[i].receiptDate
      && listing[i].uploadedAt == rows[i].uploadedAt
      && |listing[i].lineItems| == |rows[i].lineItems|
    ensures forall i, j | 0 <= i < |rows| && 0 <= j < |rows[i].lineItems| ::
      listing[i].lineItems[j] == LineItemView(
        rows[i].lineItems[j].itemName, rows[i].lineItems[j].quantity, rows[i].lineItems[j].totalLineAmount)
  {
    seq(|rows|, i requires 0 <= i < |rows| => ListReceipt(rows[i]))
  }

  /** The exact sum of some line totals. */
  function LineTotal(items: seq<LineItem>): Decimal {
    if |items| == 0 then 0.0 else LineTotal(items[..|items| - 1]) + items[|items| - 1].totalLineAmount
  }

  function ViewTotal(views: seq<LineItemView>): Decimal {
    if |views| == 0 then 0.0 else ViewTotal(views[..|views| - 1]) + views[|views| - 1].totalLineAmount
  }

  /** The projection keeps every line total, so the listed lines add up as the stored ones. */
  lemma {:induction false} ViewKeepsLineTotal(items: seq<LineItem>, views: seq<LineItemView>)
    requires |views| == |items|
    requires forall j | 0 <= j < |items| :: views[j] == ViewLineItem(items[j])
    ensures ViewTotal(views) == LineTotal(items)
    decreases |items|
  {
    if |items| > 0 {
      ViewKeepsLineTotal(items[..|items| - 1], views[..|views| - 1]);
    }
  }

  /**
   * Every listed receipt's line items add up to the same amount as the stored ones, so a
   * client summing the listed lines gets the stored total of line totals.
   */
  lemma ListingKeepsLineTotals(rows: seq<Receipt>)
    ensures var listing := GetAllReceipts(rows);
      forall i | 0 <= i < |rows| :: ViewTotal(listing[i].lineItems) == LineTotal(rows[i].lineItems)
  {
    var listing := GetAllReceipts(rows);
    forall i | 0 <= i < |rows|
      ensures ViewTotal(listing[i].lineItems) == LineTotal(rows[i].lineItems)
    {
      ViewKeepsLineTotal(rows[i].lineItems, listing[i].lineItems);
    }
  }

  /** Whether the receipt was removed, and the table's rows afterwards. */
  datatype Deletion = Deletion(deleted: bool, rows: seq<Receipt>)

  /**
   * `DeleteReceiptAsync`: the first receipt with the id is removed when the caller owns it;
   * a missing receipt and someone else's receipt both answer false and change nothing.
   */
  function DeleteReceipt(rows: seq<Receipt>, receiptId: nat, userId: int): (d: Deletion)
    ensures !d.deleted ==> d.rows == rows
    ensures !d.deleted <==>
      forall k | 0 <= k < |rows| && rows[k].id == receiptId && (forall j | 0 <= j < k :: rows[j].id != receiptId) ::
        rows[k].userId != userId
    ensures d.deleted ==> exists k | 0 <= k < |rows| ::
      && rows[k].id == receiptId && rows[k].userId == userId
      && (forall j | 0 <= j < k :: rows[j].id != receiptId)
      && d.rows == rows[..k] + rows[k + 1..]
  {
    var k := FirstIndex(rows, (r: Receipt) => r.id == receiptId);
    if k == -1 then
      Deletion(false, rows)
    else if rows[k].userId != userId then
      Deletion(false, rows)
    else
      Deletion(true, rows[..k] + rows[k + 1..])
  }

  /** Deletion never removes a receipt of another user: their receipts and total are as before. */
  lemma DeleteSparesOtherUsers(rows: seq<Receipt>, receiptId: nat, userId: int, other: int)
    requires other != userId
    ensures OwnedBy(DeleteReceipt(rows, receiptId, userId).rows, other) == OwnedBy(rows, other)
  {
    var d := DeleteReceipt(rows, receiptId, userId);
    if d.deleted {
      var k :| 0 <= k < |rows| && rows[k].id == receiptId && rows[k].userId == userId
        && d.rows == rows[..k] + rows[k + 1..];
      assert rows == rows[..k] + [rows[k]] + rows[k + 1..];
      OwnedByAppend(rows[..k], rows[k + 1..], other);
      OwnedByAppend(rows[..k] + [rows[k]], rows[k + 1..], other);
      OwnedByAppend(rows[..k], [rows[k]], other);
      assert OwnedBy([rows[k]], other) == [] by {
        assert [rows[k]][..0] == [];
      }
    }
  }

  /** Taking one of the user's receipts out of the middle takes it out of their list. */
  lemma OwnedByRemove(pre: seq<Receipt>, x: Receipt, post: seq<Receipt>, userId: int)
    requires x.userId == userId
    ensures OwnedBy(pre + [x] + post, userId) == OwnedBy(pre, userId) + [x] + OwnedBy(post, userId)
    ensures OwnedBy(pre + post, userId) == OwnedBy(pre, userId) + OwnedBy(post, userId)
  {
    OwnedByAppend(pre, post, userId);
    OwnedByAppend(pre + [x], post, userId);
    OwnedByAppend(pre, [x], userId);
    assert OwnedBy([x], userId) == [x] by {
      assert [x][..0] == [];
    }
  }

  /** One receipt more in the middle adds exactly its amount. */
  lemma TotalOfRemove(pre: seq<Receipt>, x: Receipt, post: seq<Receipt>)
    ensures TotalOf(pre + [x] + post) == TotalOf(pre + post) + x.totalAmount
  {
    TotalOfAppend(pre, post);
    TotalOfAppend(pre + [x], post);
    TotalOfAppend(pre, [x]);
    assert TotalOf([x]) == x.totalAmount by {
      assert [x][..0] == [];
    }
  }

  /** Removing one of the user's receipts lowers their total by its amount and their count by one. */
  lemma RemoveLowersTotal(rows: seq<Receipt>, k: nat, userId: int)
    requires k < |rows| && rows[k].userId == userId
    ensures TotalOf(OwnedBy(rows[..k] + rows[k + 1..], userId)) == TotalOf(OwnedBy(rows, userId)) - rows[k].totalAmount
    ensures |OwnedBy(rows[..k] + rows[k + 1..], userId)| == |OwnedBy(rows, userId)| - 1
  {
    var pre, x, post := rows[..k], rows[k], rows[k + 1..];
    assert rows == pre + [x] + post;
    OwnedByRemove(pre, x, post, userId);
    TotalOfRemove(OwnedBy(pre, userId), x, OwnedBy(post, userId));
  }

  /** A successful delete lowers the owner's total by exactly the removed receipt's amount. */
  lemma DeleteLowersTotal(rows: seq<Receipt>, receiptId: nat, userId: int)
    ensures var d := DeleteReceipt(rows, receiptId, userId);
      d.deleted ==> exists k | 0 <= k < |rows| && rows[k].id == receiptId ::
        TotalOf(OwnedBy(d.rows, userId)) == TotalOf(OwnedBy(rows, userId)) - rows[k].totalAmount
        && |OwnedBy(d.rows, userId)| == |OwnedBy(rows, userId)| - 1
  {
    var d := DeleteReceipt(rows, receiptId, userId);
    if d.deleted {
      var k :| 0 <= k < |rows| && rows[k].id == receiptId && rows[k].userId == userId
        && d.rows == rows[..k] + rows[k + 1..];
      RemoveLowersTotal(rows, k, userId);
    }
  }

  /** The number of line items stored across all receipts. */
  function ItemCount(rows: seq<Receipt>): nat {
    if |rows| == 0 then 0 else ItemCount(rows[..|rows| - 1]) + |rows[|rows| - 1].lineItems|
  }

  lemma {:induction false} ItemCountAppend(a: seq<Receipt>, b: seq<Receipt>)
    ensures ItemCount(a + b) == ItemCount(a) + ItemCount(b)
    decreases |b|
  {
    if |b| == 0 {
      assert a + b == a;
    } else {
      var b' := b[..|b| - 1];
      assert (a + b)[..|a + b| - 1] == a + b';
      ItemCountAppend(a, b');
    }
  }

  /** Removing the receipt at `k` removes exactly its line items from the count. */
  lemma RemoveLowersItemCount(rows: seq<Receipt>, k: nat)
    requires k < |rows|
    ensures ItemCount(rows[..k] + rows[k + 1..]) == ItemCount(rows) - |rows[k].lineItems|
  {
    assert rows == rows[..k] + [rows[k]] + rows[k + 1..];
    ItemCountAppend(rows[..k], rows[k + 1..]);
    ItemCountAppend(rows[..k] + [rows[k]], rows[k + 1..]);
    ItemCountAppend(rows[..k], [rows[k]]);
    assert ItemCount([rows[k]]) == |rows[k].lineItems| by {
      assert [rows[k]][..0] == [];
    }
  }

  /**
   * Line items are owned by their receipt (the `ON DELETE CASCADE` foreign key): deleting a
   * receipt removes exactly its line items and no others.
   */
  lemma DeleteCascadesLineItems(rows: seq<Receipt>, receiptId: nat, userId: int)
    ensures var d := DeleteReceipt(rows, receiptId, userId);
      d.deleted ==> exists k | 0 <= k < |rows| && rows[k].id == receiptId ::
        ItemCount(d.rows) == ItemCount(rows) - |rows[k].lineItems|
  {
    var d := DeleteReceipt(rows, receiptId, userId);
    if d.deleted {
      var k :| 0 <= k < |rows| && rows[k].id == receiptId && rows[k].userId == userId
        && d.rows == rows[..k] + rows[k + 1..];
      RemoveLowersItemCount(rows, k);
    }
  }

  /** No two receipts share an id. */
  ghost predicate UniqueIds(rows: seq<Receipt>) {
    forall i, j | 0 <= i < j < |rows| :: rows[i].id != rows[j].id
  }

  /** With unique ids a successful delete leaves no receipt with that id behind. */
  lemma DeleteRemovesTheId(rows: seq<Receipt>, receiptId: nat, userId: int)
    requires UniqueIds(rows)
    ensures var d := DeleteReceipt(rows, receiptId, userId);
      d.deleted ==> forall m | 0 <= m < |d.rows| :: d.rows[m].id != receiptId
  {
    var d := DeleteReceipt(rows, receiptId, userId);
    if d.deleted {
      var k :| 0 <= k < |rows| && rows[k].id == receiptId && d.rows == rows[..k] + rows[k + 1..];
      forall m | 0 <= m < |d.rows|
        ensures d.rows[m].id != receiptId
      {
        if m < k {
          assert d.rows[m] == rows[m] && rows[m].id != rows[k].id;
        } else {
          assert d.rows[m] == rows[m + 1] && rows[k].id != rows[m + 1].id;
        }
      }
    }
  }
}

=== FILE: retry.dfy ===
/**
 * `GeminiRetryPolicy.GetPolicy`: a Polly wait-and-retry policy that handles every response
 * whose status is not a success, retries it at most three times, and sleeps 2^n seconds
 * before retry n. Exceptions are not handled by the policy, so they escape at once.
 */
module RetryPolicy {

  /** What one POST to the analysis endpoint produced. */
  datatype HttpAnswer =
      // a response: its numeric status, the name of its `HttpStatusCode` value, and its body
    | Answered(status: nat, statusName: string, body: string)
      // an HttpRequestException: DNS failure, refused connection
    | RequestFailed(message: string)
      // any other exception, a timeout's TaskCanceledException among them
    | Faulted(message: string)

  const RetryCount: nat := 3
  const MaxAttempts: nat := RetryCount + 1

  /** `HttpResponseMessage.IsSuccessStatusCode`. */
  predicate IsSuccessStatusCode(status: nat) {
    200 <= status <= 299
  }

  /** The policy's `HandleResult` predicate: a response that is not a success. */
  predicate Handles(a: HttpAnswer) {
    a.Answered? && !IsSuccessStatusCode(a.status)
  }

  function Pow2(n: nat): (r: nat)
    ensures r >= 1
  {
    if n == 0 then 1 else 2 * Pow2(n - 1)
  }

  /** The sleep before retry number `retryAttempt` (counting from 1), in whole seconds. */
  function SleepDuration(retryAttempt: nat): nat {
    Pow2(retryAttempt)
  }

  /** The answer the caller finally sees, and the sleeps taken before it, in order. */
  datatype Execution = Execution(final: HttpAnswer, sleeps: seq<nat>)

  /**
   * `ExecuteAsync` over the answers the endpoint would give to attempts 1 to 4. The caller
   * sees the first answer the policy does not handle, or the fourth when all four are
   * handled; before each retry it has slept the scheduled time.
   */
  function Execute(answers: seq<HttpAnswer>): (e: Execution)
    requires |answers| == MaxAttempts
    ensures |e.sleeps| <= RetryCount
    ensures e.final == answers[|e.sleeps|]
    ensures forall k | 0 <= k < |e.sleeps| ::
      Handles(answers[k]) && e.sleeps[k] == SleepDuration(k + 1)
    ensures !Handles(e.final) || |e.sleeps| == RetryCount
  {
    ExecuteFrom(answers, 0)
  }

  /** The policy run from attempt `attempt + 1` on. */
  function ExecuteFrom(answers: seq<HttpAnswer>, attempt: nat): (e: Execution)
    requires |answers| == MaxAttempts && attempt <= RetryCount
    ensures attempt + |e.sleeps| <= RetryCount
    ensures e.final == answers[attempt + |e.sleeps|]
    ensures forall k | 0 <= k < |e.sleeps| ::
      Handles(answers[attempt + k]) && e.sleeps[k] == SleepDuration(attempt + k + 1)
    ensures !Handles(e.final) || attempt + |e.sleeps| == RetryCount
    decreases RetryCount - attempt
  {
    if Handles(answers[attempt]) && attempt < RetryCount then
      var rest := ExecuteFrom(answers, attempt + 1);
      Execution(rest.final, [SleepDuration(attempt + 1)] + rest.sleeps)
    else
      Execution(answers[attempt], [])
  }

  function TotalSleep(sleeps: seq<nat>): nat {
    if |sleeps| == 0 then 0 else sleeps[0] + TotalSleep(sleeps[1..])
  }

  /** Each sleep is twice the previous one, so the sleeps strictly increase. */
  lemma SleepDoubles(retryAttempt: nat)
    requires retryAttempt >= 1
    ensures SleepDuration(retryAttempt + 1) == 2 * SleepDuration(retryAttempt)
    ensures SleepDuration(retryAttempt) < SleepDuration(retryAttempt + 1)
  {
  }

  /** A success on the first attempt ends the run with no sleep. */
  lemma SuccessStopsRetrying(answers: seq<HttpAnswer>)
    requires |answers| == MaxAttempts
    requires answers[0].Answered? && IsSuccessStatusCode(answers[0].status)
    ensures Execute(answers) == Execution(answers[0], [])
  {
  }

  /**
   * Four failing responses in a row: three retries after sleeps of 2 s, 4 s and 8 s (14 s in
   * all), and the fourth failing response handed back to the caller rather than an exception.
   */
  lemma {:induction false} ExhaustedRetriesReturnLastFailure(answers: seq<HttpAnswer>)
    requires |answers| == MaxAttempts
    requires forall k | 0 <= k < |answers| :: Handles(answers[k])
    ensures Execute(answers).final == answers[RetryCount]
    ensures Execute(answers).sleeps == [2, 4, 8]
    ensures TotalSleep(Execute(answers).sleeps) == 14
  {
    var e := Execute(answers);
    assert |e.sleeps| == RetryCount;
    assert SleepDuration(1) == 2 && SleepDuration(2) == 4 && SleepDuration(3) == 8;
    assert e.sleeps == [SleepDuration(1), SleepDuration(2), SleepDuration(3)];
    assert e.sleeps[1..] == [4, 8] && e.sleeps[1..][1..] == [8] && e.sleeps[1..][1..][1..] == [];
    assert TotalSleep([8]) == 8;
    assert TotalSleep([4, 8]) == 12;
  }
}

=== FILE: sanitizer.dfy ===
/**
 * `ReceiptAnalyzer.CleanJsonOutput`: turns the model's free-form reply into the text handed
 * to the JSON deserializer. A reply fenced as a code block is cut down to the span from its
 * first `{` to its last `}`; anything else is only trimmed.
 */
module Sanitizer {
  import opened Seqs
  import opened Text

  const Fence := "```"

  /** Some `{` comes before some `}`: equivalently, the last `}` follows the first `{`. */
  ghost predicate HasBracedSpan(t: string) {
    exists i, j | 0 <= i < j < |t| :: t[i] == '{' && t[j] == '}'
  }

  /**
   * `r` is the block of `t` that starts at its first `{` and ends at its last `}`, and the
   * two braces are distinct characters.
   */
  ghost predicate IsFirstToLastBrace(r: string, t: string) {
    && |r| >= 2 && r[0] == '{' && r[|r| - 1] == '}'
    && exists i, j | 0 <= i < j < |t| ::
      && t[i] == '{' && '{' !in t[..i]
      && t[j] == '}' && '}' !in t[j + 1..]
      && r == t[i..j + 1]
  }

  /**
   * The part of a fenced reply that is kept: from the first `{` to the last `}` when the
   * last `}` follows the first `{`, and the whole text otherwise.
   */
  function BracedSpan(t: string): (r: string)
    ensures !HasBracedSpan(t) ==> r == t
    ensures HasBracedSpan(t) ==> IsFirstToLastBrace(r, t)
  {
    var start := IndexOf(t, '{');
    var end := LastIndexOf(t, '}');
    if start > -1 && end > start then t[start..end + 1] else t
  }

  function CleanJsonOutput(rawOutput: string): (r: string)
    // no fence: the trimmed reply, untouched
    ensures var t := Trim(rawOutput); !StartsWith(t, Fence) ==> r == t
    // a fence but no `{ ... }` span: still the trimmed reply, so the parser reports the error
    ensures var t := Trim(rawOutput); StartsWith(t, Fence) && !HasBracedSpan(t) ==> r == t
    // a fence and a span: exactly the text from the first `{` to the last `}`
    ensures var t := Trim(rawOutput);
      StartsWith(t, Fence) && HasBracedSpan(t) ==> IsFirstToLastBrace(r, t)
  {
    var t := Trim(rawOutput);
    if StartsWith(t, Fence) then BracedSpan(t) else t
  }

  /** The output is a contiguous piece of the input and never longer than it. */
  lemma CleanIsInfix(rawOutput: string)
    ensures IsInfix(CleanJsonOutput(rawOutput), rawOutput)
    ensures |CleanJsonOutput(rawOutput)| <= |rawOutput|
  {
    var t := Trim(rawOutput);
    var r := CleanJsonOutput(rawOutput);
    TrimIsInfix(rawOutput);
    if StartsWith(t, Fence) && HasBracedSpan(t) {
      assert IsFirstToLastBrace(r, t);
      var i, j :| 0 <= i < j < |t| && r == t[i..j + 1];
      assert IsInfix(r, t);
      InfixTransitive(r, t, rawOutput);
    }
  }

  /** Cleaning an already cleaned text changes nothing. */
  lemma CleanIdempotent(rawOutput: string)
    ensures CleanJsonOutput(CleanJsonOutput(rawOutput)) == CleanJsonOutput(rawOutput)
  {
    var t := Trim(rawOutput);
    var r := CleanJsonOutput(rawOutput);
    if r == t {
      TrimIdempotent(rawOutput);
    } else {
      TrimFixedPoint(r);
      assert r[0] != Fence[0];
    }
  }

  /** In a fenced reply the first `{` is the payload's opening brace. */
  lemma FencedFirstBrace(json: string)
    requires |json| > 0 && json[0] == '{'
    ensures IndexOf("```json\n" + json + "\n```", '{') == 8
  {
    var s := "```json\n" + json + "\n```";
    assert forall k | 0 <= k < 8 :: s[k] != '{';
    assert s[8] == '{';
    assert s[..8] == "```json\n";
  }

  /** In a fenced reply the last `}` is the payload's closing brace. */
  lemma FencedLastBrace(json: string)
    requires |json| > 0 && json[|json| - 1] == '}'
    ensures LastIndexOf("```json\n" + json + "\n```", '}') == 8 + |json| - 1
  {
    var s := "```json\n" + json + "\n```";
    var last := 8 + |json| - 1;
    assert s[last] == '}';
    assert s[last + 1..] == "\n```";
  }

  /** A payload wrapped the way the model usually answers is recovered exactly. */
  lemma FencedReplyRoundTrip(json: string)
    requires |json| > 0 && json[0] == '{' && json[|json| - 1] == '}'
    ensures CleanJsonOutput("```json\n" + json + "\n```") == json
  {
    var s := "```json\n" + json + "\n```";
    TrimFixedPoint(s);
    assert s[..3] == Fence;
    FencedFirstBrace(json);
    FencedLastBrace(json);
    assert s[8..8 + |json|] == json;
  }
}

=== FILE: seqs.dfy ===
/** Generic sequence searches shared by the string helpers, the stores and the services. */
module Seqs {

  /** `r` occurs in `s` as one contiguous block. */
  ghost predicate IsInfix<T>(r: seq<T>, s: seq<T>) {
    exists i, j | 0 <= i <= j <= |s| :: s[i..j] == r
  }

  lemma InfixOfItself<T>(s: seq<T>)
    ensures IsInfix(s, s)
  {
    assert s[0..|s|] == s;
  }

  lemma InfixTransitive<T>(a: seq<T>, b: seq<T>, c: seq<T>)
    requires IsInfix(a, b) && IsInfix(b, c)
    ensures IsInfix(a, c)
  {
    var i, j :| 0 <= i <= j <= |b| && b[i..j] == a;
    var k, l :| 0 <= k <= l <= |c| && c[k..l] == b;
    assert |b| == l - k;
    assert forall t | 0 <= t < j - i :: c[k + i..k + j][t] == b[i + t] == a[t];
    assert c[k + i..k + j] == a;
  }

  /** No element occurs twice. */
  ghost predicate NoDuplicates<T>(s: seq<T>) {
    forall i, j | 0 <= i < j < |s| :: s[i] != s[j]
  }

  /**
   * The index of the first element satisfying `p`, or -1 when there is none: the shape of
   * `IndexOf` and of `FirstOrDefault`.
   */
  function FirstIndex<T>(s: seq<T>, p: T -> bool): (r: int)
    ensures -1 <= r < |s|
    ensures r == -1 <==> forall i | 0 <= i < |s| :: !p(s[i])
    ensures 0 <= r ==> p(s[r]) && forall i | 0 <= i < r :: !p(s[i])
  {
    if |s| == 0 then -1
    else if p(s[0]) then 0
    else
      var k := FirstIndex(s[1..], p);
      if k == -1 then -1 else k + 1
  }

  /** The index of the last element satisfying `p`, or -1 when there is none (`LastIndexOf`). */
  function LastIndex<T>(s: seq<T>, p: T -> bool): (r: int)
    ensures -1 <= r < |s|
    ensures r == -1 <==> forall i | 0 <= i < |s| :: !p(s[i])
    ensures 0 <= r ==> p(s[r]) && forall i | r < i < |s| :: !p(s[i])
  {
    if |s| == 0 then -1
    else if p(s[|s| - 1]) then |s| - 1
    else LastIndex(s[..|s| - 1], p)
  }

  /**
   * LINQ's `Distinct` with the default comparer: every element once, in order of first
   * occurrence.
   */
  function Distinct<T(==)>(s: seq<T>): (r: seq<T>)
    ensures forall i | 0 <= i < |r| :: r[i] in s
    ensures forall i | 0 <= i < |s| :: s[i] in r
    ensures NoDuplicates(r)
  {
    DistinctExcept(s, {})
  }

  /** The elements of `s` not in `seen`, each once, in order of first occurrence. */
  function DistinctExcept<T(==)>(s: seq<T>, seen: set<T>): (r: seq<T>)
    ensures forall i | 0 <= i < |r| :: r[i] in s && r[i] !in seen
    ensures forall i | 0 <= i < |s| :: s[i] in seen || s[i] in r
    ensures NoDuplicates(r)
  {
    if |s| == 0 then []
    else if s[0] in seen then DistinctExcept(s[1..], seen)
    else [s[0]] + DistinctExcept(s[1..], seen + {s[0]})
  }
}

=== FILE: text.dfy ===
/**
 * The .NET string operations the core relies on, on `string` = `seq<char>`: white space,
 * `Trim`, ordinal `StartsWith`/`Contains`/`IndexOf`/`LastIndexOf`, lower-casing and
 * decimal formatting of an integer.
 */
module Text {
  import opened Seqs

  /**
   * `char.IsWhiteSpace`, which is also the regular-expression class `\s`: U+0009..U+000D,
   * U+0085 and the Unicode separator categories Zs, Zl and Zp.
   */
  predicate IsWhiteSpace(c: char) {
    || c == ' '
    || ('\t' <= c <= '\r')
    || c == '\U{85}'
    || c == '\U{A0}'
    || c == '\U{1680}'
    || ('\U{2000}' <= c <= '\U{200A}')
    || c == '\U{2028}'
    || c == '\U{2029}'
    || c == '\U{202F}'
    || c == '\U{205F}'
    || c == '\U{3000}'
  }

  predicate AllWhiteSpace(s: string) {
    forall i | 0 <= i < |s| :: IsWhiteSpace(s[i])
  }

  /** The number of white-space characters `s` starts with. */
  function LeadingWhiteSpace(s: string): (n: nat)
    ensures n <= |s|
    ensures AllWhiteSpace(s[..n])
    ensures n < |s| ==> !IsWhiteSpace(s[n])
  {
    if |s| > 0 && IsWhiteSpace(s[0]) then
      var k := LeadingWhiteSpace(s[1..]);
      assert s[1..][..k] == s[1..k + 1];
      k + 1
    else 0
  }

  /** The number of white-space characters `s` ends with. */
  function TrailingWhiteSpace(s: string): (n: nat)
    ensures n <= |s|
    ensures AllWhiteSpace(s[|s| - n..])
    ensures n < |s| ==> !IsWhiteSpace(s[|s| - n - 1])
  {
    if |s| > 0 && IsWhiteSpace(s[|s| - 1]) then
      var k := TrailingWhiteSpace(s[..|s| - 1]);
      assert s[..|s| - 1][|s| - 1 - k..] == s[|s| - 1 - k..|s| - 1];
      k + 1
    else 0
  }

  /**
   * `r` is `s` with white space cut from both ends: a block of `s` bounded by non-white
   * characters, with nothing but white space outside it. At most one `r` qualifies.
   */
  ghost predicate IsTrimOf(r: string, s: string) {
    && (|r| > 0 ==> !IsWhiteSpace(r[0]) && !IsWhiteSpace(r[|r| - 1]))
    && exists i, j | 0 <= i <= j <= |s| ::
      r == s[i..j] && AllWhiteSpace(s[..i]) && AllWhiteSpace(s[j..])
  }

  /** `Trim()`: white space removed from both ends. */
  function Trim(s: string): (r: string)
    ensures |r| <= |s|
    ensures |r| > 0 ==> !IsWhiteSpace(r[0]) && !IsWhiteSpace(r[|r| - 1])
  {
    var t := s[LeadingWhiteSpace(s)..];
    t[..|t| - TrailingWhiteSpace(t)]
  }

  /**
   * What `Trim` keeps: a block of `s` bounded by non-white characters with nothing but white
   * space cut away on either side, which pins the result down uniquely.
   */
  lemma TrimSpec(s: string)
    ensures IsTrimOf(Trim(s), s)
  {
    var i := LeadingWhiteSpace(s);
    var t := s[i..];
    var n := TrailingWhiteSpace(t);
    var j := i + |t| - n;
    assert Trim(s) == s[i..j];
    assert AllWhiteSpace(s[j..]) by {
      assert s[j..] == t[|t| - n..];
    }
    assert Trim(s) == s[i..j] && AllWhiteSpace(s[..i]) && AllWhiteSpace(s[j..]);
  }

  lemma TrimIsInfix(s: string)
    ensures IsInfix(Trim(s), s)
  {
    TrimSpec(s);
  }

  /** A string that neither starts nor ends with white space is its own trim. */
  lemma TrimFixedPoint(s: string)
    requires |s| == 0 || (!IsWhiteSpace(s[0]) && !IsWhiteSpace(s[|s| - 1]))
    ensures Trim(s) == s
  {
  }

  lemma TrimIdempotent(s: string)
    ensures Trim(Trim(s)) == Trim(s)
  {
    TrimFixedPoint(Trim(s));
  }

  /** `StartsWith` with ordinal comparison. */
  predicate StartsWith(s: string, prefix: string) {
    |prefix| <= |s| && s[..|prefix|] == prefix
  }

  lemma PrefixStartsWith(prefix: string, rest: string)
    ensures StartsWith(prefix + rest, prefix)
  {
    assert (prefix + rest)[..|prefix|] == prefix;
  }

  /** `string.Contains(string)`, which compares ordinally. */
  predicate Contains(s: string, part: string)
    decreases |s|
  {
    StartsWith(s, part) || (|s| > 0 && Contains(s[1..], part))
  }

  /** A text without the first character of `part` does not contain `part`. */
  lemma {:induction false} MissingCharNotContained(s: string, part: string)
    requires |part| > 0 && part[0] !in s
    ensures !Contains(s, part)
    decreases |s|
  {
    if |s| > 0 {
      assert s[0] != part[0];
      MissingCharNotContained(s[1..], part);
    }
  }

  /** An ordinal match found by `Contains` is a block of `s`. */
  lemma {:induction false} ContainsGivesInfix(s: string, part: string)
    requires Contains(s, part)
    ensures IsInfix(part, s)
    decreases |s|
  {
    if StartsWith(s, part) {
      assert s[0..|part|] == part;
    } else {
      ContainsGivesInfix(s[1..], part);
      var i, j :| 0 <= i <= j <= |s[1..]| && s[1..][i..j] == part;
      assert s[i + 1..j + 1] == part;
    }
  }

  /** Every block of `s` is found by `Contains`. */
  lemma {:induction false} InfixGivesContains(s: string, part: string)
    requires IsInfix(part, s)
    ensures Contains(s, part)
    decreases |s|
  {
    var i, j :| 0 <= i <= j <= |s| && s[i..j] == part;
    if i == 0 {
      assert StartsWith(s, part);
    } else {
      assert s[1..][i - 1..j - 1] == part;
      InfixGivesContains(s[1..], part);
    }
  }

  /** `Contains` answers exactly the question whether `part` occurs in `s` as a block. */
  lemma ContainsIsInfix(s: string, part: string)
    ensures Contains(s, part) <==> IsInfix(part, s)
  {
    if Contains(s, part) {
      ContainsGivesInfix(s, part);
    }
    if IsInfix(part, s) {
      InfixGivesContains(s, part);
    }
  }

  /** `IndexOf(char)`: the first position of `c`, or -1. */
  function IndexOf(s: string, c: char): (r: int)
    ensures -1 <= r < |s|
    ensures r == -1 <==> c !in s
    ensures 0 <= r ==> s[r] == c && c !in s[..r]
  {
    FirstIndex(s, x => x == c)
  }

  /** `LastIndexOf(char)`: the last position of `c`, or -1. */
  function LastIndexOf(s: string, c: char): (r: int)
    ensures -1 <= r < |s|
    ensures r == -1 <==> c !in s
    ensures 0 <= r ==> s[r] == c && c !in s[r + 1..]
  {
    LastIndex(s, x => x == c)
  }

  /** SQLite's `lower()` on one character: the ASCII letters only. */
  function StoredLowerChar(c: char): char {
    if 'A' <= c <= 'Z' then (c as int + 32) as char else c
  }

  /**
   * `c.Name.ToLower()` inside the category query. EF Core translates it to SQLite's `lower()`,
   * so only ASCII letters are lowered.
   */
  function StoredLower(s: string): (r: string)
    ensures |r| == |s|
  {
    if |s| == 0 then [] else [StoredLowerChar(s[0])] + StoredLower(s[1..])
  }

  lemma {:induction false} StoredLowerAt(s: string, i: nat)
    requires i < |s|
    ensures StoredLower(s)[i] == StoredLowerChar(s[i])
  {
    if i > 0 {
      StoredLowerAt(s[1..], i - 1);
    }
  }

  /**
   * .NET's `ToLower()` on one character, outside the Turkish and Azeri cultures: the capitals
   * of ASCII, Latin-1, Latin Extended-A, basic Greek and basic Cyrillic. İ (U+0130) is kept, as
   * those cultures keep it.
   */
  function LabelLowerChar(c: char): char {
    var n := c as int;
    if 'A' <= c <= 'Z' then (n + 32) as char
    // Latin-1: À to Þ, except ×
    else if 0xC0 <= n <= 0xDE && n != 0xD7 then (n + 32) as char
    // Latin Extended-A: capital and small letters alternate, with a few exceptions
    else if 0x100 <= n <= 0x12F && n % 2 == 0 then (n + 1) as char
    else if 0x132 <= n <= 0x137 && n % 2 == 0 then (n + 1) as char
    else if 0x139 <= n <= 0x148 && n % 2 == 1 then (n + 1) as char
    else if 0x14A <= n <= 0x177 && n % 2 == 0 then (n + 1) as char
    else if n == 0x178 then 0xFF as char
    else if 0x179 <= n <= 0x17E && n % 2 == 1 then (n + 1) as char
    // Greek: the accented capitals, then Α to Ω (U+03A2 is unassigned)
    else if n == 0x386 then 0x3AC as char
    else if 0x388 <= n <= 0x38A then (n + 37) as char
    else if n == 0x38C then 0x3CC as char
    else if 0x38E <= n <= 0x38F then (n + 63) as char
    else if 0x391 <= n <= 0x3AB && n != 0x3A2 then (n + 32) as char
    // Cyrillic: Ѐ to Џ, then А to Я
    else if 0x400 <= n <= 0x40F then (n + 80) as char
    else if 0x410 <= n <= 0x42F then (n + 32) as char
    else c
  }

  /**
   * `catName.ToLower()` in the category query: evaluated by .NET before the query is sent, as
   * a parameter, so it lowers more than the stored side does.
   */
  function LabelLower(s: string): (r: string)
    ensures |r| == |s|
  {
    if |s| == 0 then [] else [LabelLowerChar(s[0])] + LabelLower(s[1..])
  }

  lemma {:induction false} LabelLowerAt(s: string, i: nat)
    requires i < |s|
    ensures LabelLower(s)[i] == LabelLowerChar(s[i])
  {
    if i > 0 {
      LabelLowerAt(s[1..], i - 1);
    }
  }

  /** Every character is ASCII. */
  predicate IsAscii(s: string) {
    forall k | 0 <= k < |s| :: s[k] as int < 128
  }

  /** On ASCII text the two lowerings agree. */
  lemma {:induction false} AsciiLowerAgrees(s: string)
    requires IsAscii(s)
    ensures StoredLower(s) == LabelLower(s)
  {
    if |s| > 0 {
      AsciiLowerAgrees(s[1..]);
    }
  }

  /**
   * A name beginning with a non-ASCII capital that .NET lowers (Ç, Ł, Ω, М, ...) is lowered by
   * the label side only, so the two lower-casings differ.
   */
  lemma NonAsciiCapitalDisagrees(c: char, rest: string)
    requires c as int >= 128 && LabelLowerChar(c) != c
    ensures StoredLower([c] + rest) != LabelLower([c] + rest)
  {
    StoredLowerAt([c] + rest, 0);
    LabelLowerAt([c] + rest, 0);
  }

  function DigitChar(d: nat): char
    requires d < 10
  {
    "0123456789"[d]
  }

  function DigitValue(c: char): nat {
    if '0' <= c <= '9' then c as int - '0' as int else 0
  }

  /** The decimal rendering of a non-negative integer, as `{n}` interpolation prints it. */
  function Digits(n: nat): (r: string)
    ensures |r| > 0
    ensures forall i | 0 <= i < |r| :: '0' <= r[i] <= '9'
    ensures |r| > 1 ==> r[0] != '0'
  {
    if n < 10 then [DigitChar(n)] else Digits(n / 10) + [DigitChar(n % 10)]
  }

  /** Reads a string of decimal digits back as a number. */
  function DigitsValue(s: string): nat {
    if |s| == 0 then 0 else 10 * DigitsValue(s[..|s| - 1]) + DigitValue(s[|s| - 1])
  }

  /** The rendering loses nothing: reading it back gives the number. */
  lemma {:induction false} DigitsRoundTrip(n: nat)
    ensures DigitsValue(Digits(n)) == n
  {
    if n >= 10 {
      DigitsRoundTrip(n / 10);
      var r := Digits(n);
      assert r[..|r| - 1] == Digits(n / 10);
    }
  }
}

=== FILE: validation.dfy ===
/**
 * The data-annotation rules on the register forms, as the framework's validators apply them:
 * `[Required]`, `[EmailAddress]`, `[RegularExpression]` with the e-mail pattern, and
 * `[MinLength]`. A field is valid when every rule declared on it holds; a form is valid when
 * every field is. A field value is `None` when the client sent null or nothing.
 */
module RegisterValidation {
  import opened Wrappers
  import opened Text

  /** The rules the register forms declare. */
  datatype Rule =
    | Required
    | EmailAddress
      // `[RegularExpression(@"^[^@\s]+@[^@\s]+\.[^@\s]+$")]`
    | EmailPattern
    | MinLength(length: nat)

  /** A rule as declared on a property, with the error message it names (None: the default). */
  datatype Annotation = Annotation(rule: Rule, errorMessage: Option<string>)

  /** `RequiredAttribute`: not null, and not empty or white space only. */
  predicate RequiredOk(v: Option<string>) {
    v.Some? && !AllWhiteSpace(v.value)
  }

  /** `MinLengthAttribute`: null passes; a string needs at least `length` characters. */
  predicate MinLengthOk(v: Option<string>, length: nat) {
    v.None? || |v.value| >= length
  }

  /**
   * `EmailAddressAttribute`: null passes; a string needs exactly one '@', and not as its first
   * or last character.
   */
  predicate EmailAddressOk(v: Option<string>) {
    v.None? ||
      var s := v.value;
      var at := IndexOf(s, '@');
      at > 0 && at != |s| - 1 && at == LastIndexOf(s, '@')
  }

  /** The regex character class `[^@\s]`. */
  predicate Plain(c: char) {
    c != '@' && !IsWhiteSpace(c)
  }

  predicate AllPlain(s: string) {
    forall i | 0 <= i < |s| :: Plain(s[i])
  }

  /**
   * The whole of `s` matches `[^@\s]+@[^@\s]+\.[^@\s]+`: three non-empty runs of plain
   * characters, split by the '@' at `a` and a '.' at `k`.
   */
  ghost predicate EmailRegexMatches(s: string) {
    exists a, k | 0 < a && a + 1 < k && k + 1 < |s| ::
      && s[a] == '@' && s[k] == '.'
      && AllPlain(s[..a]) && AllPlain(s[a + 1..k]) && AllPlain(s[k + 1..])
  }

  /**
   * A direct test for the pattern: one '@', not first, no white space, and a '.' after the
   * '@' with at least one character on each side of it.
   */
  predicate MatchesEmailPattern(s: string) {
    var a := IndexOf(s, '@');
    && a > 0
    && LastIndexOf(s, '@') == a
    && (forall i | 0 <= i < |s| :: !IsWhiteSpace(s[i]))
    && a + 2 < |s|
    && '.' in s[a + 2..|s| - 1]
  }

  /** In a full match every character but the '@' is plain. */
  lemma PlainOutsideAt(s: string, a: nat, k: nat)
    requires 0 < a && a + 1 < k && k + 1 < |s| && s[k] == '.'
    requires AllPlain(s[..a]) && AllPlain(s[a + 1..k]) && AllPlain(s[k + 1..])
    ensures forall i | 0 <= i < |s| && i != a :: Plain(s[i])
  {
    forall i | 0 <= i < |s| && i != a
      ensures Plain(s[i])
    {
      if i < a {
        assert s[..a][i] == s[i];
      } else if i < k {
        assert s[a + 1..k][i - a - 1] == s[i];
      } else if k < i {
        assert s[k + 1..][i - k - 1] == s[i];
      }
    }
  }

  /** The direct test finds the split the regex needs. */
  lemma PatternGivesMatch(s: string)
    requires MatchesEmailPattern(s)
    ensures EmailRegexMatches(s)
  {
    var a := IndexOf(s, '@');
    var mid := s[a + 2..|s| - 1];
    var j :| 0 <= j < |mid| && mid[j] == '.';
    var k := a + 2 + j;
    assert s[k] == '.';
    forall i | 0 <= i < |s| && i != a
      ensures Plain(s[i])
    {
      if i < a {
        assert s[..a][i] == s[i];
      } else {
        assert s[a + 1..][i - a - 1] == s[i];
      }
    }
    assert AllPlain(s[..a]);
    assert AllPlain(s[a + 1..k]);
    assert AllPlain(s[k + 1..]);
  }

  /** A split the regex accepts passes the direct test. */
  lemma MatchGivesPattern(s: string)
    requires EmailRegexMatches(s)
    ensures MatchesEmailPattern(s)
  {
    var a, k :| 0 < a && a + 1 < k && k + 1 < |s|
      && s[a] == '@' && s[k] == '.'
      && AllPlain(s[..a]) && AllPlain(s[a + 1..k]) && AllPlain(s[k + 1..]);
    PlainOutsideAt(s, a, k);
    assert '@' !in s[..a];
    assert '@' !in s[a + 1..];
    assert IndexOf(s, '@') == a;
    assert LastIndexOf(s, '@') == a;
    assert s[a + 2..|s| - 1][k - a - 2] == '.';
  }

  /** The direct test accepts exactly the strings the regex matches in full. */
  lemma MatchesEmailPatternIff(s: string)
    ensures MatchesEmailPattern(s) <==> EmailRegexMatches(s)
  {
    if MatchesEmailPattern(s) {
      PatternGivesMatch(s);
    }
    if EmailRegexMatches(s) {
      MatchGivesPattern(s);
    }
  }

  /** `RegularExpressionAttribute`: null and "" pass; otherwise the match must cover the value. */
  predicate RegexOk(v: Option<string>) {
    v.None? || |v.value| == 0 || MatchesEmailPattern(v.value)
  }

  /** Whether one rule accepts the value. */
  predicate Holds(rule: Rule, v: Option<string>) {
    match rule
    case Required => RequiredOk(v)
    case EmailAddress => EmailAddressOk(v)
    case EmailPattern => RegexOk(v)
    case MinLength(length) => MinLengthOk(v, length)
  }

  /** Every rule declared on the property accepts the value; the messages play no part. */
  predicate FieldValid(annotations: seq<Annotation>, v: Option<string>) {
    forall i | 0 <= i < |annotations| :: Holds(annotations[i].rule, v)
  }

  /** The three properties of a register form. */
  datatype RegisterForm = RegisterForm(username: Option<string>, email: Option<string>, password: Option<string>)

  /** The annotations declared on each property of a register form. */
  datatype FormRules = FormRules(username: seq<Annotation>, email: seq<Annotation>, password: seq<Annotation>)

  predicate FormValid(rules: FormRules, form: RegisterForm) {
    && FieldValid(rules.username, form.username)
    && FieldValid(rules.email, form.email)
    && FieldValid(rules.password, form.password)
  }

  /** Two declarations carry the same rules in the same order, whatever their messages. */
  predicate SameRules(a: seq<Annotation>, b: seq<Annotation>) {
    |a| == |b| && forall i | 0 <= i < |a| :: a[i].rule == b[i].rule
  }

  /** Forms declared with the same rules accept exactly the same input. */
  lemma SameRulesSameVerdict(x: FormRules, y: FormRules, form: RegisterForm)
    requires SameRules(x.username, y.username) && SameRules(x.email, y.email) && SameRules(x.password, y.password)
    ensures FormValid(x, form) <==> FormValid(y, form)
  {
  }

  /** A value the regex accepts has an '@' that is not first, so it is also a valid address. */
  lemma PatternImpliesEmailAddress(s: string)
    requires MatchesEmailPattern(s)
    ensures RequiredOk(Some(s)) && EmailAddressOk(Some(s))
  {
    var a := IndexOf(s, '@');
    assert !IsWhiteSpace(s[a]);
  }

  /**
   * The rules of an e-mail property, `[Required]`, `[EmailAddress]` and the pattern, accept a
   * value exactly when it is present and the pattern matches all of it.
   */
  lemma EmailFieldIff(annotations: seq<Annotation>, v: Option<string>)
    requires |annotations| == 3
    requires annotations[0].rule == Required && annotations[1].rule == EmailAddress
    requires annotations[2].rule == EmailPattern
    ensures FieldValid(annotations, v) <==> v.Some? && EmailRegexMatches(v.value)
  {
    if v.Some? {
      MatchesEmailPatternIff(v.value);
      if MatchesEmailPattern(v.value) {
        PatternImpliesEmailAddress(v.value);
      }
      if FieldValid(annotations, v) {
        assert Holds(annotations[0].rule, v) && Holds(annotations[2].rule, v);
        assert |v.value| > 0;
      }
    } else {
      assert !Holds(annotations[0].rule, v);
    }
  }

  /** The rules of a password property, `[Required]` and `[MinLength(6)]`. */
  lemma PasswordFieldIff(annotations: seq<Annotation>, v: Option<string>)
    requires |annotations| == 2
    requires annotations[0].rule == Required && annotations[1].rule == MinLength(6)
    ensures FieldValid(annotations, v) <==> v.Some? && |v.value| >= 6 && !AllWhiteSpace(v.value)
  {
    if FieldValid(annotations, v) {
      assert Holds(annotations[0].rule, v) && Holds(annotations[1].rule, v);
    }
  }

  /**
   * An accepted address has exactly one '@', with something before it, no white space
   * anywhere, and a '.' after it with something on either side.
   */
  lemma AcceptedEmailShape(s: string)
    requires EmailRegexMatches(s)
    ensures exists a | 0 < a < |s| ::
      && s[a] == '@'
      && (forall i | 0 <= i < |s| && s[i] == '@' :: i == a)
      && exists k | a + 1 < k < |s| - 1 :: s[k] == '.'
    ensures forall i | 0 <= i < |s| :: !IsWhiteSpace(s[i])
  {
    var a, k :| 0 < a && a + 1 < k && k + 1 < |s|
      && s[a] == '@' && s[k] == '.'
      && AllPlain(s[..a]) && AllPlain(s[a + 1..k]) && AllPlain(s[k + 1..]);
    PlainOutsideAt(s, a, k);
    assert s[a] == '@' && !IsWhiteSpace(s[a]);
  }

  /** "a@b.c" is accepted. */
  lemma ShortestEmailAccepted()
    ensures EmailRegexMatches("a@b.c")
  {
    var s := "a@b.c";
    assert s[..1] == "a" && s[2..3] == "b" && s[4..] == "c";
    assert AllPlain(s[..1]) && AllPlain(s[2..3]) && AllPlain(s[4..]);
    assert s[1] == '@' && s[3] == '.';
    assert 0 < 1 && 1 + 1 < 3 && 3 + 1 < |s|;
  }

  /** "a@b" has no '.' after the '@' and is refused. */
  lemma DotlessDomainRejected()
    ensures !EmailRegexMatches("a@b")
  {
    MatchesEmailPatternIff("a@b");
  }

  /** "@b.c" has nothing before the '@' and is refused. */
  lemma EmptyLocalPartRejected()
    ensures !EmailRegexMatches("@b.c")
  {
    MatchesEmailPatternIff("@b.c");
    assert IndexOf("@b.c", '@') == 0;
  }

  /** "a@.c" and "a@b." have nothing on one side of the '.' and are refused. */
  lemma EmptyDomainPartRejected()
    ensures !EmailRegexMatches("a@.c")
    ensures !EmailRegexMatches("a@b.")
  {
    MatchesEmailPatternIff("a@.c");
    MatchesEmailPatternIff("a@b.");
    assert IndexOf("a@.c", '@') == 1 && "a@.c"[3..3] == [];
    assert IndexOf("a@b.", '@') == 1 && "a@b."[3..3] == [];
  }

  /** "a b@c.d" contains a space and is refused. */
  lemma SpacedEmailRejected()
    ensures !EmailRegexMatches("a b@c.d")
  {
    MatchesEmailPatternIff("a b@c.d");
    assert IsWhiteSpace("a b@c.d"[1]);
  }

  /** Six characters are enough and five are not; six spaces fail `[Required]`. */
  lemma PasswordExamples()
    ensures Holds(Required, Some("secret")) && Holds(MinLength(6), Some("secret"))
    ensures !Holds(MinLength(6), Some("short"))
    ensures Holds(MinLength(6), Some("      ")) && !Holds(Required, Some("      "))
  {
    assert !IsWhiteSpace("secret"[0]);
  }
}

/** `ReceiptParserAPI.Dto.UserRegisterDto`. */
module ApiRegisterForm {
  import opened Wrappers
  import opened Text
  import opened RegisterValidation

  const Rules := FormRules(
    [Annotation(Required, None)],
    [Annotation(Required, None), Annotation(EmailAddress, None),
     Annotation(EmailPattern, Some("Ge\U{E7}erli bir e-posta giriniz"))],
    [Annotation(Required, None), Annotation(MinLength(6), None)])

  predicate Valid(form: RegisterForm) {
    FormValid(Rules, form)
  }

  /**
   * The API accepts a registration exactly when the username is present and not blank, the
   * email is present and matches the pattern in full, and the password is present, not blank
   * and at least six characters long.
   */
  lemma ValidIff(form: RegisterForm)
    ensures Valid(form) <==>
      && form.username.Some? && !AllWhiteSpace(form.username.value)
      && form.email.Some? && EmailRegexMatches(form.email.value)
      && form.password.Some? && |form.password.value| >= 6 && !AllWhiteSpace(form.password.value)
  {
    EmailFieldIff(Rules.email, form.email);
    PasswordFieldIff(Rules.password, form.password);
    assert FieldValid(Rules.username, form.username) <==> RequiredOk(form.username) by {
      assert Rules.username[0].rule == Required;
    }
  }
}

/** `ReceiptParser.UI.Dto.RegisterDto`: the same rules, with messages of its own. */
module UiRegisterForm {
  import opened Wrappers
  import opened RegisterValidation
  import ApiRegisterForm

  const Rules := FormRules(
    [Annotation(Required, Some("Kullan\U{131}c\U{131} ad\U{131} zorunludur."))],
    [Annotation(Required, Some("E-posta zorunludur.")),
     Annotation(EmailAddress, Some("L\U{FC}tfen ge\U{E7}erli bir e-posta adresi giriniz.")),
     Annotation(EmailPattern, Some("Ge\U{E7}erli bir e-posta giriniz"))],
    [Annotation(Required, Some("\U{15E}ifre zorunludur.")),
     Annotation(MinLength(6), Some("\U{15E}ifre en az 6 karakter olmal\U{131}d\U{131}r."))])

  predicate Valid(form: RegisterForm) {
    FormValid(Rules, form)
  }

  /** The form checks what the API checks: the two accept exactly the same registrations. */
  lemma AgreesWithApi(form: RegisterForm)
    ensures Valid(form) <==> ApiRegisterForm.Valid(form)
  {
    SameRulesSameVerdict(Rules, ApiRegisterForm.Rules, form);
  }
}

=== FILE: wrappers.dfy ===
/** Option and Result, the model's stand-ins for C# null references and thrown exceptions. */
module Wrappers {

  /** A value that may be absent: `None` plays the part of a C# `null`. */
  datatype Option<+T> = None | Some(value: T) {

    /** The `??` operator: the value if present, otherwise the default. */
    function GetOr(default: T): T {
      match this
      case Some(v) => v
      case None => default
    }
  }

  /** The outcome of a step that either produces a value or throws. */
  datatype Result<+R, +E> = Success(value: R) | Failure(error: E)
}
